=== FILE: README.md ===
# FususMatrix core in Dafny

A Dafny model of the core of the FususMatrix C++ library. It covers four parts:

- **Strided dense container** (`DenseMatrixContainer`):
  - a flat buffer, the per-dimension sizes and row-major strides, and a weak-transpose flag;
  - flat and coordinate access;
  - the elementwise unary and compound operators;
  - the cache-oblivious strong transpose;
  - the triple-loop product, the triangular scans and the triangular solver `span`.
- **Lazy expression-template engine**: `Scalar`, `Addition`, `Subtraction`, `Multiplication` and `Division`, plus the eight operator overloads that build them.
- **`Matrix` facade**:
  - assignment, which is where an expression is forced index by index;
  - the compound operators, `Multiply` and `operator<<`;
  - the `VectorProduct` size helper.
- **Worked examples** of the demonstration program (`Main.cpp`).

Modules and files:

| file | module | what it holds |
|---|---|---|
| `numerics.dfy` | `Numerics` | `Product` of a size list, the four operators `Op`/`Apply`, the error outcomes `Error`/`Result` |
| `dense.dfy` | `Dense` | `Container`, strides, construction, positions and their inverse, `Entry`/`SetEntry`, weak transpose, elementwise operators |
| `triangular.dfy` | `Triangular` | triangularity predicates and the two scans |
| `transpose.dfy` | `CacheOblivious` | blocks, the split as written and corrected, `minortranspose`, `transposeRecursion`, `strongTranspose` |
| `solve.dfy` | `Solve` | forward and back substitution, uniqueness of solutions, `span` as written and corrected |
| `multiply.dfy` | `MatMul` | the container-level matrix product |
| `lazy.dfy` | `Lazy` | expression trees over a store of containers: value, size, shape, operator builders |
| `facade.dfy` | `Facade` | `operator=` (both forms), compound assignment, `Multiply` |
| `render.dfy` | `Render` | `operator<<` and reading its text back |
| `scenarios.dfy` | `Scenarios` | the matrices and expressions of `Main.cpp` |

Modelling conventions:

- **Elements are `real`.** A quotient needs a nonzero divisor, which is a precondition.
- **Shape assertions become errors.** The library's assertions that check shapes on ordinary input become `Err` results:
  - a zero size at construction gives `ZeroExtent`;
  - unequal sizes give `ShapeMismatch`;
  - a non-triangular matrix passed to `span` gives `NotTriangular`;
  - a flat index past a buffer during assignment gives `OutOfRange`.
- **Rank conditions are preconditions.** Conditions on the rank are compile-time template parameters in C++, so they become `requires`.
- **Aliasing is explicit.** A lazy expression refers to containers by index into a `Store` (a sequence of containers). Assignment writes one of them while the expression may still read it.
- **Unsigned wrap-around** is written out with `SizeModulus` (2^64) where a finding depends on it.

## Model

| member | source | states |
|---|---|---|
| Numerics.VectorProduct | Matrix.h:15-21 | The running product of the sizes is the element count of the size list. The empty list gives 1, and the result is zero exactly when some size is zero. |
| Dense.ScalePrefix | DenseMatrixContainer.h:53-55 | One pass of the inner stride loop multiplies the first n strides by the size and leaves every later stride alone. |
| Dense.ComputeStrides | DenseMatrixContainer.h:51-56 | The stride initialisation yields row-major strides: the last stride is 1, and each stride is the next one times the next size. |
| Dense.PartialStridesComplete | DenseMatrixContainer.h:52-56 | Once the outer loop has folded in every size, the strides it built are the row-major strides. |
| Dense.StrideRecurrence | DenseMatrixContainer.h:52-56 | Row-major strides end in 1, and each stride equals the following stride times the following size. |
| Dense.New | DenseMatrixContainer.h:29-57 | Construction succeeds exactly when no sizes are given or every size is positive; otherwise it fails with `ZeroExtent`. With no sizes every size is 0 and the buffer holds one element. Otherwise the sizes are kept, the buffer length is their product, and every element starts at 0. The result is untransposed and satisfies the container invariant. |
| Dense.PositionBound | DenseMatrixContainer.h:235-239 | For in-range coordinates, the inner product with the strides lies below the element count. |
| Dense.PositionOfUnravel | DenseMatrixContainer.h:235-239 | Every flat position below the element count is the position of some in-range coordinate tuple, so the position map is onto. |
| Dense.UnravelOfPosition | DenseMatrixContainer.h:235-239 | Unravelling the position of in-range coordinates gives back those coordinates. |
| Dense.PositionInjective | DenseMatrixContainer.h:235-239 | Distinct in-range coordinate tuples occupy distinct buffer cells. |
| Dense.InRangeReadable | DenseMatrixContainer.h:241-259 | Coordinates that are in range in storage order (reversed when transposed) can be read without leaving the buffer. |
| Dense.Rank2Layout | DenseMatrixContainer.h:52-56 | A valid rank-2 container has strides `[columns, 1]` and holds rows × columns cells. |
| Dense.OffsetInRange | DenseMatrixContainer.h:241-259 | Every (row, column) access below the reported rows and columns stays inside the buffer when the container is unflagged, or flagged and square. |
| Dense.ViewOffsetInRange | DenseMatrixContainer.h:241-259 | With the transpose flag set, every access below the swapped extents (columns × rows) stays inside the buffer. On an unflagged or square container the swapped extents are the reported ones. |
| Dense.TransposedExtentEscapes | DenseMatrixContainer.h:99-116 | After a weak transpose of a 2 × 3 matrix, `rows()` and `columns()` still report 2 and 3, and the access (1, 2) below them lands at flat position 7 of a 6-element buffer. |
| Dense.TallTransposedInBuffer | DenseMatrixContainer.h:99-116 | On a flagged container with no more columns than rows, every access below the reported extents stays inside the buffer. |
| Dense.TallTransposedAliases | DenseMatrixContainer.h:241-249 | After a weak transpose of a 3 × 2 matrix the extents still read 3 and 2. Accesses (0, 1) and (2, 0) read the same cell, position 2 of 6. |
| Dense.EntryIsGet | DenseMatrixContainer.h:241-259 | The rank-2 `(i, j)` access is the general coordinate access on `[i, j]`, with the coordinates swapped when the flag is set. |
| Dense.OffsetInjective | DenseMatrixContainer.h:241-259 | Two different (row, column) pairs never read the same cell. |
| Dense.UpdateFrame | DenseMatrixContainer.h:251-259 | Writing one buffer cell through `(i, j)` changes only that entry's view. |
| Dense.SetEntry | DenseMatrixContainer.h:251-259 | After `c(i, j) = v`, the entry (i, j) is v and every other entry is as before. Sizes, strides and flag are unchanged. |
| Dense.Transpose | DenseMatrixContainer.h:183-186 | The weak transpose keeps the container invariant. |
| Dense.TransposeView | DenseMatrixContainer.h:183-186 | After the weak transpose, `(i, j)` reads what `(j, i)` read before. Buffer, sizes and strides are untouched; only the flag flips. |
| Dense.TransposeInvolution | DenseMatrixContainer.h:183-186 | Two weak transposes restore the container. |
| Dense.SwapAsWritten | DenseMatrixContainer.h:74-81 | `swap` as written keeps both containers valid. The first container receives the second's buffer, sizes, strides and flag. The second receives the first's buffer, sizes and strides but keeps its own flag. |
| Dense.SwapAsWrittenTwice | DenseMatrixContainer.h:74-81 | Swapping twice as written restores both containers exactly when their flags agreed. |
| Dense.SwapCorrectsFlag | DenseMatrixContainer.h:74-81 | The corrected swap differs from the written one only in the second container's final flag. The two coincide exactly when the flags agreed. |
| Dense.SwapInvolution | DenseMatrixContainer.h:74-81 | `swap` with the flag exchanged as well restores both containers when applied twice. |
| Dense.Negate | DenseMatrixContainer.h:136-141 | Unary minus negates every element in place and keeps sizes, strides and flag. |
| Dense.NegateInvolution | DenseMatrixContainer.h:136-141 | Negating twice restores the container. |
| Dense.Reciprocals | DenseMatrixContainer.h:143-148 | Every element is replaced by its multiplicative inverse: each new element times the old one is 1, and no element becomes zero. |
| Dense.ReciprocalsInvolution | DenseMatrixContainer.h:143-148 | Taking reciprocals twice restores the container. |
| Dense.Combine | DenseMatrixContainer.h:151-168 | The compound operators `+=`, `-=` and `*=` by a container (and `/=`, lines 175-180) combine index by index over the target's buffer and change nothing else. |
| Dense.ScaleAsWritten | DenseMatrixContainer.h:169-174 | The scalar `*=` as written leaves every element exactly s larger than before. |
| Dense.Scale | DenseMatrixContainer.h:169-174 | The scalar `*=` as intended multiplies every element by s and keeps the layout. |
| Dense.ScaleAsWrittenAdds | DenseMatrixContainer.h:169-174 | On `[1]` with s = 2, the written `*=` gives 3 and the intended one gives 2. |
| Dense.ScaleInverse | DenseMatrixContainer.h:169-174 | Scaling by a nonzero s and then by 1/s restores the container. |
| Triangular.LowerScanInBuffer | DenseMatrixContainer.h:275-285 | Every cell the lower scan reads lies inside the buffer on an unflagged container of any shape, and on a flagged one with no more columns than rows. |
| Triangular.BelowInBuffer | DenseMatrixContainer.h:288-298 | Every cell strictly below the diagonal and below the reported columns lies inside the buffer, for every shape and either flag. |
| Triangular.CellsAreEntries | DenseMatrixContainer.h:275-298 | Where the reported extents are safe, the zero conditions on the scanned cells are exactly lower and upper triangularity of the entries. |
| Triangular.IsLowerTriangular | DenseMatrixContainer.h:275-285 | On every container whose scan stays inside the buffer, flagged or not, the scan answers true exactly when every cell it reads (row i, column j > i) is zero. On an unflagged or square container, this means every entry strictly above the diagonal is zero. |
| Triangular.IsUpperTriangular | DenseMatrixContainer.h:288-298 | As written, with either flag: whenever the scan stays inside the columns (rows ≤ columns + 1), it answers true exactly when every cell strictly below the diagonal is zero. On an unflagged or square container, these cells are the entries. |
| Triangular.UpperScanStaysInColumns | DenseMatrixContainer.h:290-292 | The written scan's column index stays below the column count exactly when rows ≤ columns + 1. With two or more extra rows it reads column `columns`. |
| Triangular.IsUpperTriangularBounded | DenseMatrixContainer.h:288-298 | With the column loop also bounded by the column count, the scan answers true exactly when every cell strictly below the diagonal is zero, for every shape and either flag. |
| CacheOblivious.SourceSplit | DenseMatrixContainer.h:199-219 | The written split keeps the block's first row and column in its first half. Its midpoint is half the side length, used as an absolute index. |
| CacheOblivious.SourceSplitEscapes9x9 | DenseMatrixContainer.h:208-211 | On a 9 × 9 matrix, the written recursion reaches block rows 5..8 × columns 5..8 and splits it into rows 5..2 and rows 3..8. The second half holds cells outside its parent. The first half's width wraps to 2^64 − 2, so it is split again instead of copied, into a block whose last row lies past the matrix. |
| CacheOblivious.Split | DenseMatrixContainer.h:207-217 | The corrected split divides a block into two halves that partition it. Both halves are proper and smaller than the block. |
| CacheOblivious.SplitAgreesAtOrigin | DenseMatrixContainer.h:208-216 | For a block starting at row 0 and column 0 (the top-level call), the written split and the corrected split coincide. |
| CacheOblivious.MinorTranspose | DenseMatrixContainer.h:190-196 | The naive double loop stores `target(j, i) = source(i, j)` for every cell of the block and leaves every other target entry alone. |
| CacheOblivious.TransposeRecursion | DenseMatrixContainer.h:199-219 | The divide-and-conquer transpose with the corrected split does exactly what the naive loop does on the whole block. |
| CacheOblivious.StrongTranspose | DenseMatrixContainer.h:225-231 | On a square container, it fails with `ZeroExtent` exactly when the container is 0 × 0: building the temporary then trips the constructor's zero-size assertion (line 45). Otherwise entry (i, j) of the result is entry (j, i) of the input, with the flag cleared, and the result reads the same as the weak transpose. |
| CacheOblivious.StrongTransposeTwice | DenseMatrixContainer.h:225-231 | Two strong transposes of an unflagged square container restore it exactly. On a 0 × 0 container the first one already fails. |
| CacheOblivious.AsWrittenTempMisplaces | DenseMatrixContainer.h:227-228 | The temporary that `New` builds with the source's rows × columns cannot receive the transpose of a non-square source. With more columns, the last source cell is stored past that container's buffer. With more rows, source cells (columns, 0) and (0, 1) are stored at the same offset. |
| CacheOblivious.StrongTransposeRect | DenseMatrixContainer.h:225-231 | With the temporary built columns × rows, any matrix is strongly transposed: sizes swap and entry (i, j) is the old (j, i). |
| Solve.SubtractLeft | DenseMatrixContainer.h:306-309 | The forward inner loop subtracts the row's terms left of the diagonal from unknown i and changes no other unknown. |
| Solve.SubtractRight | DenseMatrixContainer.h:316-319 | The backward inner loop subtracts the row's terms right of the diagonal from unknown i and changes no other unknown. |
| Solve.ForwardSubstitution | DenseMatrixContainer.h:304-313 | On a lower-triangular system with nonzero diagonal, the result solves `t · x = b` on the first `columns` rows of t. |
| Solve.BackSubstitution | DenseMatrixContainer.h:314-322 | On an upper-triangular system with nonzero diagonal, a descending loop that terminates solves `t · x = b` on the first `columns` rows of t. |
| Solve.LowerSolutionUnique | DenseMatrixContainer.h:304-313 | A lower-triangular system with nonzero diagonal has at most one solution, so forward substitution's answer is the answer. |
| Solve.UpperSolutionUnique | DenseMatrixContainer.h:314-322 | An upper-triangular system with nonzero diagonal has at most one solution. |
| Solve.SpanAsWritten | DenseMatrixContainer.h:300-325 | As written: the assertion fails exactly when b's length differs from the columns. A lower-triangular matrix is solved. An upper-but-not-lower matrix returns b unchanged. Any other matrix reaches the final assertion. |
| Solve.ForwardBranchEscapesWide | DenseMatrixContainer.h:304-310 | The lower-triangular 1 × 2 matrix [[1, 0]] sends the forward loop to row 1, at flat position 2 of a 2-element buffer. |
| Solve.UpperBranchCounterexample | DenseMatrixContainer.h:314-322 | For t = [[1, 1], [0, 1]] and b = [1, 1], which is upper- and not lower-triangular, b is not a solution. |
| Solve.Span | DenseMatrixContainer.h:300-325 | The corrected solver fails exactly in three cases. It fails with `ShapeMismatch` when b's length differs from the columns. It fails with `NotTriangular` when the matrix is neither lower- nor upper-triangular. It fails with `ShapeMismatch` when a triangular matrix has more columns than rows. Otherwise the result solves the system on the first `columns` rows of t and keeps b's layout. |
| MatMul.EntryOfProduct | DenseMatrixContainer.h:265-267 | The innermost loop accumulates the row-times-column sum of entry (i, j). |
| MatMul.Multiply | DenseMatrixContainer.h:261-272 | Afterwards every target entry (i, j) is the sum over k of `A(i, k) · B(k, j)`, and the target's layout is unchanged. |
| MatMul.ColumnDotIsRowDot | DenseMatrixContainer.h:261-272 | Multiplying by an n × 1 matrix is the row product that the solver's equations use. |
| MatMul.SolutionReproducesRightSide | DenseMatrixContainer.h:300-325 | Multiplying `t` by a solution stored as a column gives back b: `span` inverts `Multiply`. |
| Lazy.WellBuiltHasLeaf | BinaryOperatorsForLazyEvaluation.h:10-69 | Every expression the operator overloads can build contains a matrix operand. |
| Lazy.SizeIsLeftmostLeaf | LazyEvaluationExpressionTemplates.h:68-70 | An expression's `size()` is the buffer length of its leftmost matrix, and it is 0 only for a bare scalar: a scalar operand never masks a matrix. |
| Lazy.ShapeExtendsWritten | LazyEvaluationExpressionTemplates.h:72-75 | Wherever the written shape rule yields a shape, the broadcasting rule yields the same shape. |
| Lazy.ShapeOfUniform | LazyEvaluationExpressionTemplates.h:72-75 | Under the broadcasting rule, any buildable expression over matrices of one shape has that shape, however scalars are mixed in. |
| Lazy.ScalarSumShape | LazyEvaluationExpressionTemplates.h:72-75 | `s + M` and `M + s` are rejected by the written shape rule for every M of positive rank but accepted by the broadcasting rule with M's shape. |
| Lazy.EvalLocal | LazyEvaluationExpressionTemplates.h:64-66 | `operator[]` at index i reads only index i of each operand. Two stores that agree at i give the same value and the same readability. |
| Lazy.TransposeInvisible | DenseMatrixContainer.h:125-128 | Expressions read their leaves by flat index, so weakly transposing a leaf does not change any value of the expression. |
| Lazy.FlatReadOfTransposedLeaf | DenseMatrixContainer.h:125-128 | For a weakly transposed leaf, flat index `i · columns + j` holds the entry (j, i) of the transposed view, not entry (i, j). |
| Lazy.AddMatrices | BinaryOperatorsForLazyEvaluation.h:10-14 | `M1 + M2` is readable at i exactly when both are, and its value is the sum of theirs. |
| Lazy.AddScalarLeft | BinaryOperatorsForLazyEvaluation.h:18-22 | `s + M` has M's size and readability, and its value at every index is s plus M's. |
| Lazy.AddScalarRight | BinaryOperatorsForLazyEvaluation.h:26-30 | `M + s` has M's size and readability, and its value at every index is M's plus s. |
| Lazy.SubtractMatrices | BinaryOperatorsForLazyEvaluation.h:34-38 | `M1 - M2` is readable at i exactly when both are, and its value is the difference. |
| Lazy.MultiplyElementwise | BinaryOperatorsForLazyEvaluation.h:42-46 | `M1 * M2` is the elementwise product, readable at i exactly when both operands are. |
| Lazy.ScaleLeft | BinaryOperatorsForLazyEvaluation.h:49-53 | `s * M` has M's size and readability, and its value is s times M's. |
| Lazy.ScaleRight | BinaryOperatorsForLazyEvaluation.h:57-61 | `M * s` has M's size and readability, and its value is M's times s. |
| Lazy.DivideMatrices | BinaryOperatorsForLazyEvaluation.h:65-69 | `M1 / M2` is readable at i exactly when both are and the divisor's value there is nonzero. Its value is the quotient. |
| Lazy.BuildersInvert | BinaryOperatorsForLazyEvaluation.h:10-69 | `(M1 + M2) - M2` is readable exactly where both operands are and reads M1 there. `(M1 / M2) * M2` reads M1 wherever the quotient is readable. |
| Lazy.ScalarLeaf | LazyEvaluationExpressionTemplates.h:9-31 | A scalar returns its value at every index, reports size 0 and reports the empty shape. |
| Lazy.ScalarSidesAgree | BinaryOperatorsForLazyEvaluation.h:18-30 | Lifting a scalar on either side of `+` (and likewise `*`) gives the same size, shape, readability and values. |
| Facade.SameShapeAssign | Matrix.h:44-50 | Same-type assignment fails with `ShapeMismatch` exactly when the sizes differ. Otherwise it copies the other buffer and keeps the target's sizes and flag. |
| Facade.SameShapeAssignIgnoresFlag | Matrix.h:44-50 | The copy is in storage order: assigning a weakly transposed matrix to an unflagged one makes entry (i, j) of the target the other's entry (j, i). |
| Facade.Force | Matrix.h:58-60 | The forcing loop fails with `OutOfRange` exactly when some visited index leaves the target or a leaf. Otherwise the store afterwards is the one computed from the store before, even when the target is also a leaf of the expression. |
| Facade.Assign | Matrix.h:53-62 | With broadcasting shapes, assignment rejects the shape exactly when both sides have more than one element and the shapes differ. It fails for range exactly when the shape passes but an index leaves a buffer. Otherwise it stores the expression's values. |
| Facade.AssignAsWritten | Matrix.h:53-62 | The same three-way outcome under the written shape rule. |
| Facade.BroadcastAcceptsMore | Matrix.h:55-57 | Any assignment the written shape rule accepts is also accepted under broadcasting. |
| Facade.ScalarSumAssignment | LazyEvaluationExpressionTemplates.h:72-75 | `M = s + M` with more than one element fails as written. Under broadcasting it succeeds and sets each element to s plus its old value. |
| Facade.Compound | Matrix.h:123-146 | The compound operators fail with `ShapeMismatch` exactly when the sizes differ. Otherwise they combine index by index and keep the target's layout. |
| Facade.CompoundIsAssignment | Matrix.h:123-137 | `c op= x` stores exactly what the assignment `c = c op x` stores. |
| Facade.ScalarCompoundAsWritten | Matrix.h:138-141 | The written scalar `*=` stores what `c = c + s` stores. |
| Facade.ScalarCompound | Matrix.h:138-141 | The intended scalar `*=` stores what `c = c * s` stores. |
| Facade.MultiplyMatrices | Matrix.h:173-178 | The product fails with `ShapeMismatch` when the inner dimensions differ, and with `ZeroExtent` when the result would have no rows or no columns. Otherwise it is a fresh rows(A) × columns(B) matrix whose entry (i, j) is the row-times-column sum. |
| Render.Print | Matrix.h:197-214 | The output is every row's elements in order, separated by commas and each followed by a line break. It is empty exactly when there are no rows. |
| Render.PrintedLayout | Matrix.h:197-214 | If no element's text holds a comma or a line break, the output splits into one line per row plus an empty tail. Each line splits at its commas into exactly that row's elements: printing loses and adds nothing. |
| Scenarios.MatrixA | Main.cpp:69-73 | The demonstration's A has entry (i, j) = 1 + i + 2j. |
| Scenarios.WeakTransposeOfA | Main.cpp:77-80 | `A.transpose()` leaves A's storage untouched. Entry (0, 2) then reads 3, where it read 5 before. |
| Scenarios.StrongTransposeOfWeakA | Main.cpp:83-88 | `A.strongTranspose()` on the weakly transposed A gives back A's original storage with the flag cleared. |
| Scenarios.MatrixDNotLower | Main.cpp:148-161 | The demonstration's D is neither lower- nor upper-triangular. |
| Scenarios.MatrixEIsLower | Main.cpp:167-180 | The demonstration's E is lower-triangular with a nonzero diagonal. |
| Scenarios.MatrixESolution | Main.cpp:184-189 | x = [1, 0, −1/6] solves E x = B for B = [1, 2, 3]. |
| Scenarios.SpanOfE | Main.cpp:189 | `E.span(B)`, run as written, succeeds and yields exactly [1, 0, −1/6]. |
| Scenarios.ScalarSumOfOneByOne | Main.cpp:107-109 | `Q = 2.3 + P + 2.5` on 1 × 1 matrices succeeds despite the written shape rule, because the rule is not consulted for a one-element target. Q becomes 4.8. |
| Scenarios.SelfSum | Main.cpp:132-136 | `K = (K + K) + (K + (K + K))` reads each element before overwriting it, so K becomes 5 K. |
| Scenarios.LinearCombination | Main.cpp:116 | `C = 5·P + 2.3·B + C / C` with C nonzero (P the product `A.Multiply(B)`) succeeds although C is read while written. Every element becomes 5 P + 2.3 B + 1. |

## Left out

- **`MatrixInitializer.h`, `SparseMatrix.h` and `SparseMatrixContainer.h`** are not part of this model. They are a stub and an initializer outside the dense core.
- **`Main.cpp`'s console I/O, timing and `getchar` pauses** are not modelled; only its matrices and expressions are.
- **Floating point:**
  - Elements are exact reals. Rounding, infinities and NaN are not modelled.
  - A zero divisor (in `/`, `/=`, `reciprocals` and the solver's diagonal) is a precondition rather than an infinity.
  - The solver's singular-system case (a zero diagonal entry) is a precondition: the library divides without checking.
- **Storage type:** the `std::deque` used for `bool` elements and `std::vector` otherwise hold the same flat sequence, so the model has one element type.
- **Lifetimes:**
  - Move construction (lines 59-65) takes over the other container's buffer, sizes, strides and flag, and leaves the other one holding the new object's default-constructed members. A moved-from container is not modelled. `swap` (lines 74-81) is modelled as `Dense.SwapAsWritten`.
  - Copy construction is value copying.
  - Dangling references from an expression that outlives its operands are not modelled: a store index cannot dangle.
- **Rank as a template parameter:**
  - Rank and its `static_assert`s are compile-time in C++, so rank-2 conditions are preconditions.
  - The stored `MyDimension` equals the length of the size list and is not kept separately.
  - The rank-0 special case of the constructor (lines 48-50) is covered by the no-sizes branch of `Dense.New`.
- **Pass-throughs:**
  - `Matrix` members that only forward to the container (unary minus, `reciprocals`, `transpose`, `strongTranspose`, `operator()`, `IsLowerTriangular`, `span`, the `Matrix(Rep)` constructor) are modelled by the container's members.
  - `SizeAlongDimension`, `rows`, `columns`, `dimension` and `getSizesAlongEachDimension` are field reads.
  - The `Traits` classes only choose between holding an operand by reference or by value. The model holds scalars by value and matrices by store index.
- **Stream formatting:** how `operator<<` writes a single number is the stream's business; it is the `show` parameter of `Render.Print`.
- **Unsigned and integer widths:**
  - Numerics.VectorProduct: computes the exact product. It does not model the 64-bit `size_t` wrap-around of the running product, which only occurs for element counts that could not be allocated anyway.
  - Dense.PositionBound: positions are exact naturals. `ComputePosition` accumulates the inner product in an `int`, which would overflow only for buffers of more than 2^31 elements.
  - Dense.New: the element count is the exact product. A size product that wraps to a nonzero value is not modelled, for the same reason.
- Triangular.IsUpperTriangular: requires rows ≤ columns + 1. On a taller matrix, a scan that meets a nonzero cell first returns false after reads inside the buffer; that outcome is not modelled. Otherwise the scan reaches a column index ≥ columns (`Triangular.UpperScanStaysInColumns`). That read lands on a cell aliasing another entry, or past the buffer: an unflagged (columns + 2) × columns matrix is read at flat position rows · columns. `Triangular.IsUpperTriangularBounded` is the version defined for every shape.
- Triangular.IsLowerTriangular: requires that a flagged container have no more columns than rows. On a flagged wide container, a scan that meets a nonzero cell first returns false after reads inside the buffer; that outcome is not modelled. Otherwise it reaches row 0, column rows, whose flat position rows · columns lies just past the buffer.
- Dense.Viewable: excludes a flagged non-square container, because `rows()` and `columns()` report the unflagged sizes:
  - On a flagged wide container, `operator<<`, `Multiply` and `span` read below those extents and past the buffer (`Dense.TransposedExtentEscapes`).
  - On a flagged tall one, every such read stays inside the buffer (`Dense.TallTransposedInBuffer`). The reads land on aliased cells, not on the transposed entries (`Dense.TallTransposedAliases`). What is printed, multiplied or solved from those cells is not modelled.
  - The members that require `Dense.Viewable` (entry access, multiplication, printing, the solver) therefore say nothing about a weakly transposed non-square matrix.
- CacheOblivious.TransposeRecursion: uses the corrected split. With the written split the recursion leaves the matrix from 9 × 9 upwards, which `CacheOblivious.SourceSplitEscapes9x9` exhibits, so there is nothing sound to state about it.
- CacheOblivious.StrongTranspose: requires a square matrix, the only case in which the written temporary has the right shape. `CacheOblivious.StrongTransposeRect` is the corrected version for every shape. It also recurses with `CacheOblivious.TransposeRecursion`'s corrected split. The written split agrees with it at the top-level call (`CacheOblivious.SplitAgreesAtOrigin`) but leaves the matrix on a 9 × 9 one (`CacheOblivious.SourceSplitEscapes9x9`), so the written strong transpose is not claimed to agree with the model beyond the top-level split.
- **The upper branch of `span`:**
  - The -1 in the loop test converts to the largest `size_t`, so the loop test fails at once and b is returned unchanged.
  - The model follows the code (`Solve.SpanAsWritten`).
- Solve.SpanAsWritten: requires, once b's length matches, that a lower-triangular t be no wider than tall, with a nonzero diagonal. Otherwise the forward loop reads past the buffer (`Solve.ForwardBranchEscapesWide`) or divides by zero. It also requires that a t which is not lower-triangular have rows ≤ columns + 1. The outcomes of the written upper scan on taller matrices are not modelled, as under `Triangular.IsUpperTriangular`.

## Findings

| source | as written | input that shows it | evidently intended | confidence | as-written member | corrected member |
|---|---|---|---|---|---|---|
| DenseMatrixContainer.h:208-216 | The split point is `width / 2` (or `hight / 2`), used as an absolute row (or column) index, though the block need not start at 0. | A 9 × 9 strong transpose, the smallest square one affected, reaches rows 5..8 × columns 5..8 and splits it into rows 5..2 and rows 3..8. The range 5..2 has width 2^64 − 2, and the recursion then indexes past the matrix. | The split is `first + span / 2`, which partitions the block. | not executed | CacheOblivious.SourceSplitEscapes9x9 | CacheOblivious.TransposeRecursion |
| DenseMatrixContainer.h:227 | The temporary is built with the source's sizes (rows × columns), although it receives the transpose. | A 2 × 3 source stores cell (1, 2) at flat position 7 of a 6-element buffer. A 3 × 2 source stores cells (2, 0) and (0, 1) in the same place. | The temporary is columns × rows. | not executed | CacheOblivious.AsWrittenTempMisplaces | CacheOblivious.StrongTransposeRect |
| DenseMatrixContainer.h:315 | The descending loop's test is `i > -1` on a `size_t`. The -1 becomes the largest `size_t`, so the body never runs and b is returned unchanged. | t = [[1, 1], [0, 1]], b = [1, 1] returns [1, 1], but t · [1, 1] = [2, 1]. | A back substitution that runs i from n − 1 down to 0. | not executed | Solve.UpperBranchCounterexample | Solve.Span |
| DenseMatrixContainer.h:171 | The scalar `*=` adds s to every element. | `[1] *= 2` gives [3]. | Every element is multiplied by s. | not executed | Dense.ScaleAsWrittenAdds | Dense.Scale |
| DenseMatrixContainer.h:290-292 | `IsUpperTriangular`'s column loop runs to `j < i` without bounding j by the column count. | An upper-triangular 4 × 2 matrix is read at (3, 2), which is flat position 8 of an 8-element buffer. | The column loop also stops at the column count. | not executed | Triangular.UpperScanStaysInColumns | Triangular.IsUpperTriangularBounded |
| LazyEvaluationExpressionTemplates.h:72-75 | `Addition` asserts that both operands report the same shape. A `Scalar` reports the empty shape, so every `s + M` and `M + s` fails this when assigned to a target of more than one element. | `M = 2.0 + M` with M 3 × 1. | The scalar is broadcast, as `Multiplication` does: the shape is that of the operand with nonzero size. | not executed | Facade.ScalarSumAssignment | Facade.Assign |
| DenseMatrixContainer.h:304-310 | The forward branch of `span` runs one step per column, but t has only `rows()` rows. | t = [[1, 0]], which is lower-triangular, with b = [1, 1]: step 1 reads t(1, 0) at flat position 2 of a 2-element buffer. | A wide system is rejected, or solved only for its leading square block. | not executed | Solve.ForwardBranchEscapesWide | Solve.Span |
| DenseMatrixContainer.h:99-116 | `rows()` and `columns()` report the stored sizes whatever the transpose flag says. | Weakly transpose a 2 × 3 matrix and read (1, 2), below the reported extents (as `operator<<` and `Multiply` do): the read lands at flat position 7 of a 6-element buffer. | While flagged, the extents are swapped to columns × rows. | not executed | Dense.TransposedExtentEscapes | Dense.ViewOffsetInRange |
| DenseMatrixContainer.h:77 | `swap` copies the other container's flag instead of exchanging it. | Swap a flagged a with an unflagged b: both end up unflagged, and swapping again does not restore a. | The flags are exchanged like the buffers. | not executed | Dense.SwapAsWrittenTwice | Dense.SwapCorrectsFlag | DenseMatrixContainer.h:74-81 | The corrected swap differs from the written one only in the second container's final flag. The two coincide exactly when the flags agreed. |
| Dense.SwapInvolution |

=== FILE: dense.dfy ===
/** The strided dense container: a flat buffer, per-dimension sizes,
    row-major strides computed once at construction, and the weak-transpose
    flag that reverses the coordinate order of an access. */
module Dense {
  import opened Numerics

  datatype Container = Container(
    buffer: seq<real>,     // the elements in storage order
    transposed: bool,      // weak-transpose flag
    sizes: seq<nat>,       // size along each dimension; its length is the rank
    strides: seq<nat>)     // distance in the buffer between neighbours along each dimension

  // ---------------------------------------------------------------------------
  // Strides and construction
  // ---------------------------------------------------------------------------

  /** Row-major strides: the stride of a dimension is the product of the sizes
      of every later dimension, so the last dimension moves fastest. */
  function RowMajorStrides(sizes: seq<nat>): (st: seq<nat>)
    ensures |st| == |sizes|
  {
    seq(|sizes|, d requires 0 <= d < |sizes| => Product(sizes[d + 1..]))
  }

  lemma ProductSnoc(s: seq<nat>, a: nat, b: nat)
    requires a <= b < |s|
    ensures Product(s[a..b + 1]) == Product(s[a..b]) * s[b]
  {
    assert s[a..b + 1][..b - a] == s[a..b];
  }

  lemma StridesTail(sizes: seq<nat>)
    requires |sizes| > 0
    ensures RowMajorStrides(sizes)[0] == Product(sizes[1..])
    ensures RowMajorStrides(sizes)[1..] == RowMajorStrides(sizes[1..])
  {
    var st := RowMajorStrides(sizes);
    forall d | 0 <= d < |sizes| - 1
      ensures st[1..][d] == RowMajorStrides(sizes[1..])[d]
    {
      assert sizes[1..][d + 1..] == sizes[d + 2..];
    }
  }

  /** Multiplies the first n strides by f, leaving the rest alone (the
      source's inner stride loop). */
  method ScalePrefix(strides: seq<nat>, n: nat, f: nat) returns (r: seq<nat>)
    requires n <= |strides|
    ensures |r| == |strides|
    ensures forall k :: 0 <= k < |strides| ==> r[k] == if k < n then strides[k] * f else strides[k]
  {
    r := strides;
    var j := 0;
    while j < n
      invariant 0 <= j <= n
      invariant |r| == |strides|
      invariant forall k :: 0 <= k < |strides| ==> r[k] == if k < j then strides[k] * f else strides[k]
    {
      r := r[j := r[j] * f];
      j := j + 1;
    }
  }

  /** Stride of dimension k after the source's outer loop has folded in the
      sizes of dimensions 1 .. i-1. */
  function PartialStride(sizes: seq<nat>, k: nat, i: nat): nat
    requires i <= |sizes|
  {
    if k < i then Product(sizes[k + 1..i]) else 1
  }

  lemma PartialStrideStep(sizes: seq<nat>, k: nat, i: nat)
    requires i < |sizes|
    ensures PartialStride(sizes, k, i + 1) == if k < i then PartialStride(sizes, k, i) * sizes[i] else 1
  {
    if k < i {
      ProductSnoc(sizes, k + 1, i);
    } else if k == i {
      assert sizes[k + 1..i + 1] == [];
    }
  }

  /** The source's stride initialisation: every stride starts at 1 and, for
      each dimension i after the first, all earlier strides are multiplied by
      the size of i. */
  method ComputeStrides(sizes: seq<nat>) returns (strides: seq<nat>)
    ensures strides == RowMajorStrides(sizes)
    ensures |sizes| > 0 ==> strides[|sizes| - 1] == 1
    ensures forall d :: 0 <= d < |sizes| - 1 ==> strides[d] == strides[d + 1] * sizes[d + 1]
  {
    strides := seq(|sizes|, _ => 1);
    if |sizes| == 0 {
      return;
    }
    var i := 1;
    while i < |sizes|
      invariant 1 <= i <= |sizes|
      invariant |strides| == |sizes|
      invariant forall k :: 0 <= k < |sizes| ==> strides[k] == PartialStride(sizes, k, i)
    {
      var next := ScalePrefix(strides, i, sizes[i]);
      forall k | 0 <= k < |sizes|
        ensures next[k] == PartialStride(sizes, k, i + 1)
      {
        PartialStrideStep(sizes, k, i);
      }
      strides := next;
      i := i + 1;
    }
    PartialStridesComplete(sizes, strides);
    StrideRecurrence(sizes);
  }

  /** Once every size has been folded in, the partial strides are the
      row-major ones. */
  lemma PartialStridesComplete(sizes: seq<nat>, strides: seq<nat>)
    requires |strides| == |sizes|
    requires forall k :: 0 <= k < |sizes| ==> strides[k] == PartialStride(sizes, k, |sizes|)
    ensures strides == RowMajorStrides(sizes)
  {
    forall k | 0 <= k < |sizes|
      ensures strides[k] == RowMajorStrides(sizes)[k]
    {
      assert sizes[k + 1..|sizes|] == sizes[k + 1..];
    }
  }

  /** Row-major strides end in 1 and each is the next one times the next
      size. */
  lemma StrideRecurrence(sizes: seq<nat>)
    ensures |sizes| > 0 ==> RowMajorStrides(sizes)[|sizes| - 1] == 1
    ensures forall d :: 0 <= d < |sizes| - 1 ==>
      RowMajorStrides(sizes)[d] == RowMajorStrides(sizes)[d + 1] * sizes[d + 1]
  {
    if |sizes| > 0 {
      assert sizes[|sizes|..] == [];
    }
    forall d | 0 <= d < |sizes| - 1
      ensures RowMajorStrides(sizes)[d] == RowMajorStrides(sizes)[d + 1] * sizes[d + 1]
    {
      ProductCons(sizes[d + 1..]);
      assert sizes[d + 1..][1..] == sizes[d + 2..];
    }
  }

  /** Every size given is positive. */
  predicate AllPositive(s: seq<nat>)
  {
    forall d :: 0 <= d < |s| ==> s[d] > 0
  }

  lemma {:induction false} ProductPositive(s: seq<nat>)
    requires AllPositive(s)
    ensures Product(s) > 0
  {
    ProductZero(s);
  }

  /** The container invariant: strides are row-major for the sizes, and the
      buffer holds one cell per coordinate tuple, except for the all-zero
      placeholder shape, whose buffer holds exactly one cell. */
  predicate Valid(c: Container)
  {
    && c.strides == RowMajorStrides(c.sizes)
    && |c.buffer| > 0
    && (|c.buffer| == Product(c.sizes)
        || (|c.buffer| == 1 && forall d :: 0 <= d < |c.sizes| ==> c.sizes[d] == 0))
    && (c.transposed ==> |c.sizes| == 2)
  }

  /** Construction from a rank and a (possibly empty) list of sizes: no sizes
      means every size is zero and the buffer has a single cell; otherwise the
      buffer has one zero cell per coordinate tuple, and a zero size trips the
      constructor's assertion. */
  function New(rank: nat, sizes: seq<nat>): (r: Result<Container>)
    requires |sizes| == 0 || |sizes| == rank
    ensures r.Ok? <==> (|sizes| == 0 || AllPositive(sizes))
    ensures r.Err? ==> r.error == ZeroExtent
    ensures r.Ok? ==> Valid(r.value) && !r.value.transposed && |r.value.sizes| == rank
    ensures r.Ok? && |sizes| == 0 ==>
      |r.value.buffer| == 1 && forall d :: 0 <= d < rank ==> r.value.sizes[d] == 0
    ensures r.Ok? && |sizes| > 0 ==> r.value.sizes == sizes && |r.value.buffer| == Product(sizes)
    ensures r.Ok? ==> forall k :: 0 <= k < |r.value.buffer| ==> r.value.buffer[k] == 0.0
  {
    if |sizes| == 0 then
      var zeros := seq(rank, _ => 0);
      Ok(Container([0.0], false, zeros, RowMajorStrides(zeros)))
    else
      var n := Product(sizes);
      ProductZero(sizes);
      if n == 0 then Err(ZeroExtent)
      else Ok(Container(seq(n, _ => 0.0), false, sizes, RowMajorStrides(sizes)))
  }

  // ---------------------------------------------------------------------------
  // Coordinates and positions
  // ---------------------------------------------------------------------------

  /** Flat position of a coordinate tuple: the inner product with the strides. */
  function Position(coords: seq<nat>, strides: seq<nat>): nat
    requires |coords| == |strides|
  {
    if |coords| == 0 then 0 else coords[0] * strides[0] + Position(coords[1..], strides[1..])
  }

  predicate InRange(sizes: seq<nat>, coords: seq<nat>)
  {
    |coords| == |sizes| && forall d :: 0 <= d < |sizes| ==> coords[d] < sizes[d]
  }

  lemma MulMonotone(a: nat, b: nat, m: nat)
    requires a <= b
    ensures a * m <= b * m
  {
    assert b * m == a * m + (b - a) * m;
  }

  lemma MulStrictMonotone(a: nat, b: nat, m: nat)
    requires a < b
    ensures a * m + m <= b * m
  {
    MulMonotone(a + 1, b, m);
    assert (a + 1) * m == a * m + m;
  }

  lemma MixedRadixBound(a: nat, x: nat, n: nat, m: nat)
    requires a < n && x < m
    ensures a * m + x < n * m
  {
    MulStrictMonotone(a, n, m);
  }

  /** Quotient and remainder by a positive m, with the quotient bounded when
      the dividend is below n * m. */
  lemma DivMod(p: nat, m: nat, n: nat)
    requires m > 0
    ensures p == (p / m) * m + p % m && p % m < m
    ensures p < n * m ==> p / m < n
  {
    if p < n * m && p / m >= n {
      MulMonotone(n, p / m, m);
    }
  }

  lemma MixedRadixDigits(a: nat, x: nat, m: nat)
    requires x < m
    ensures (a * m + x) / m == a && (a * m + x) % m == x
  {
    var p := a * m + x;
    DivMod(p, m, 0);
    var q, r := p / m, p % m;
    if q > a {
      MulStrictMonotone(a, q, m);
    } else if q < a {
      MulStrictMonotone(q, a, m);
    }
  }

  /** In-range coordinates land inside the buffer. */
  lemma {:induction false} PositionBound(sizes: seq<nat>, coords: seq<nat>)
    requires InRange(sizes, coords)
    ensures Position(coords, RowMajorStrides(sizes)) < Product(sizes)
    decreases |sizes|
  {
    if |sizes| > 0 {
      StridesTail(sizes);
      ProductCons(sizes);
      assert InRange(sizes[1..], coords[1..]);
      PositionBound(sizes[1..], coords[1..]);
      MixedRadixBound(coords[0], Position(coords[1..], RowMajorStrides(sizes[1..])),
                      sizes[0], Product(sizes[1..]));
    }
  }

  /** The inverse of Position: the coordinates of a flat position. */
  function Unravel(sizes: seq<nat>, p: nat): (coords: seq<nat>)
    requires AllPositive(sizes)
    ensures |coords| == |sizes|
    decreases |sizes|
  {
    if |sizes| == 0 then []
    else
      assert AllPositive(sizes[1..]);
      ProductPositive(sizes[1..]);
      var m := Product(sizes[1..]);
      [p / m] + Unravel(sizes[1..], p % m)
  }

  /** Every position below the buffer length is reached by exactly the
      coordinates Unravel gives back. */
  lemma {:induction false} PositionOfUnravel(sizes: seq<nat>, p: nat)
    requires AllPositive(sizes) && p < Product(sizes)
    ensures InRange(sizes, Unravel(sizes, p))
    ensures Position(Unravel(sizes, p), RowMajorStrides(sizes)) == p
    decreases |sizes|
  {
    if |sizes| > 0 {
      assert AllPositive(sizes[1..]);
      ProductPositive(sizes[1..]);
      var m := Product(sizes[1..]);
      ProductCons(sizes);
      StridesTail(sizes);
      var u := Unravel(sizes, p);
      assert u[1..] == Unravel(sizes[1..], p % m);
      DivMod(p, m, sizes[0]);
      PositionOfUnravel(sizes[1..], p % m);
      forall d | 0 <= d < |sizes|
        ensures u[d] < sizes[d]
      {
        if d > 0 {
          assert u[d] == u[1..][d - 1];
        }
      }
    }
  }

  lemma {:induction false} UnravelOfPosition(sizes: seq<nat>, coords: seq<nat>)
    requires AllPositive(sizes) && InRange(sizes, coords)
    ensures Unravel(sizes, Position(coords, RowMajorStrides(sizes))) == coords
    decreases |sizes|
  {
    if |sizes| > 0 {
      assert AllPositive(sizes[1..]);
      assert InRange(sizes[1..], coords[1..]);
      StridesTail(sizes);
      var m := Product(sizes[1..]);
      var rest := Position(coords[1..], RowMajorStrides(sizes[1..]));
      PositionBound(sizes[1..], coords[1..]);
      MixedRadixDigits(coords[0], rest, m);
      UnravelOfPosition(sizes[1..], coords[1..]);
    }
  }

  /** Distinct in-range coordinate tuples occupy distinct buffer cells. */
  lemma PositionInjective(sizes: seq<nat>, a: seq<nat>, b: seq<nat>)
    requires InRange(sizes, a) && InRange(sizes, b)
    requires Position(a, RowMajorStrides(sizes)) == Position(b, RowMajorStrides(sizes))
    ensures a == b
  {
    assert AllPositive(sizes) by {
      forall d | 0 <= d < |sizes|
        ensures sizes[d] > 0
      {
        assert a[d] < sizes[d];
      }
    }
    UnravelOfPosition(sizes, a);
    UnravelOfPosition(sizes, b);
  }

  // ---------------------------------------------------------------------------
  // Element access
  // ---------------------------------------------------------------------------

  /** The order in which an access's coordinates reach the position
      computation: with the flag set, the first coordinate moves to the end
      (for rank 2, the two coordinates swap). */
  function StoredOrder(c: Container, coords: seq<nat>): (s: seq<nat>)
    ensures |s| == |coords|
  {
    if c.transposed && |coords| > 0 then coords[1..] + [coords[0]] else coords
  }

  predicate Readable(c: Container, coords: seq<nat>)
  {
    && Valid(c)
    && |coords| == |c.sizes|
    && Position(StoredOrder(c, coords), c.strides) < |c.buffer|
  }

  /** Coordinate access `c(c0, c1, ...)`. */
  function Get(c: Container, coords: seq<nat>): real
    requires Readable(c, coords)
  {
    c.buffer[Position(StoredOrder(c, coords), c.strides)]
  }

  /** Coordinates that are in range in storage order can be read. */
  lemma InRangeReadable(c: Container, coords: seq<nat>)
    requires Valid(c) && InRange(c.sizes, StoredOrder(c, coords))
    ensures Readable(c, coords)
  {
    var s := StoredOrder(c, coords);
    PositionBound(c.sizes, s);
    if |c.sizes| > 0 {
      assert s[0] < c.sizes[0];
    }
  }

  // ---------------------------------------------------------------------------
  // The rank-2 view
  // ---------------------------------------------------------------------------

  function Rows(c: Container): nat
    requires |c.sizes| == 2
  {
    c.sizes[0]
  }

  function Cols(c: Container): nat
    requires |c.sizes| == 2
  {
    c.sizes[1]
  }

  /** A rank-2 container whose every (row, column) pair below the reported
      sizes can be read; a weakly transposed one must be square, because rows
      and columns are reported from the untransposed sizes. */
  predicate Viewable(c: Container)
  {
    Valid(c) && |c.sizes| == 2 && (c.transposed ==> c.sizes[0] == c.sizes[1])
  }

  lemma Rank2Layout(c: Container)
    requires Valid(c) && |c.sizes| == 2
    ensures c.strides == [Cols(c), 1]
    ensures Rows(c) > 0 && Cols(c) > 0 ==> |c.buffer| == Rows(c) * Cols(c)
  {
    var st := RowMajorStrides(c.sizes);
    assert c.sizes[1..] == [c.sizes[1]];
    assert c.sizes[2..] == [];
    assert Product([c.sizes[1]]) == Product([]) * c.sizes[1];
    assert st[0] == Product(c.sizes[1..]) == Cols(c);
    assert st[1] == Product(c.sizes[2..]) == 1;
    assert st == [st[0], st[1]];
    assert c.sizes[..1] == [c.sizes[0]];
    assert Product([c.sizes[0]]) == Product([]) * c.sizes[0];
    assert Product(c.sizes) == Product(c.sizes[..1]) * c.sizes[1];
  }

  /** Buffer cell read by the rank-2 access `(i, j)`. */
  function Offset(c: Container, i: nat, j: nat): nat
    requires |c.sizes| == 2
  {
    if c.transposed then j * Cols(c) + i else i * Cols(c) + j
  }

  lemma OffsetInRange(c: Container, i: nat, j: nat)
    requires Viewable(c) && i < Rows(c) && j < Cols(c)
    ensures Offset(c, i, j) < |c.buffer|
  {
    Rank2Layout(c);
    if c.transposed {
      MixedRadixBound(j, i, Cols(c), Cols(c));
    } else {
      MixedRadixBound(i, j, Rows(c), Cols(c));
    }
  }

  /** The element at row i, column j, as `c(i, j)` reads it. */
  function Entry(c: Container, i: nat, j: nat): real
    requires Viewable(c) && i < Rows(c) && j < Cols(c)
  {
    OffsetInRange(c, i, j);
    c.buffer[Offset(c, i, j)]
  }

  /** Entry is the rank-2 case of the general coordinate access. */
  lemma EntryIsGet(c: Container, i: nat, j: nat)
    requires Viewable(c) && i < Rows(c) && j < Cols(c)
    ensures Readable(c, [i, j]) && Entry(c, i, j) == Get(c, [i, j])
  {
    Rank2Layout(c);
    OffsetInRange(c, i, j);
    var s := StoredOrder(c, [i, j]);
    if c.transposed {
      assert s == [j, i];
    }
    assert s[1..] == [s[1]] && c.strides[1..] == [1];
    assert Position([s[1]], [1]) == s[1] * 1 + Position([], []);
    assert Position(s, c.strides) == s[0] * Cols(c) + s[1];
  }

  /** Distinct in-range (row, column) pairs read distinct cells. */
  lemma OffsetInjective(c: Container, i: nat, j: nat, p: nat, q: nat)
    requires Viewable(c) && i < Rows(c) && j < Cols(c) && p < Rows(c) && q < Cols(c)
    requires Offset(c, i, j) == Offset(c, p, q)
    ensures i == p && j == q
  {
    if c.transposed {
      MixedRadixDigits(j, i, Cols(c));
      MixedRadixDigits(q, p, Cols(c));
    } else {
      MixedRadixDigits(i, j, Cols(c));
      MixedRadixDigits(p, q, Cols(c));
    }
  }

  lemma UpdateFrame(c: Container, i: nat, j: nat, v: real)
    requires Viewable(c) && i < Rows(c) && j < Cols(c)
    ensures Offset(c, i, j) < |c.buffer|
    ensures var r := c.(buffer := c.buffer[Offset(c, i, j) := v]);
      && Viewable(r) && Entry(r, i, j) == v
      && forall p: nat, q: nat :: p < Rows(c) && q < Cols(c) && (p != i || q != j) ==>
           Entry(r, p, q) == Entry(c, p, q)
  {
    OffsetInRange(c, i, j);
    var r := c.(buffer := c.buffer[Offset(c, i, j) := v]);
    forall p: nat, q: nat | p < Rows(c) && q < Cols(c) && (p != i || q != j)
      ensures Entry(r, p, q) == Entry(c, p, q)
    {
      OffsetInRange(c, p, q);
      if Offset(c, p, q) != Offset(c, i, j) {
        assert Offset(r, p, q) == Offset(c, p, q);
        assert r.buffer[Offset(c, p, q)] == c.buffer[Offset(c, p, q)];
      } else {
        OffsetInjective(c, i, j, p, q);
      }
    }
  }

  /** Writing through `c(i, j) = v`: that element changes and no other. */
  function SetEntry(c: Container, i: nat, j: nat, v: real): (r: Container)
    requires Viewable(c) && i < Rows(c) && j < Cols(c)
    ensures Viewable(r) && r.sizes == c.sizes && r.strides == c.strides && r.transposed == c.transposed
    ensures Entry(r, i, j) == v
    ensures forall p: nat, q: nat :: p < Rows(c) && q < Cols(c) && (p != i || q != j) ==>
      Entry(r, p, q) == Entry(c, p, q)
  {
    UpdateFrame(c, i, j, v);
    c.(buffer := c.buffer[Offset(c, i, j) := v])
  }

  /** The cell `c(i, j)` reads, for any rank-2 access that lands inside the
      buffer, whether or not (i, j) is below the reported rows and columns. */
  function At(c: Container, i: nat, j: nat): real
    requires |c.sizes| == 2 && Offset(c, i, j) < |c.buffer|
  {
    c.buffer[Offset(c, i, j)]
  }

  // ---------------------------------------------------------------------------
  // Extents of the transposed view
  // ---------------------------------------------------------------------------

  /** Rows of the matrix a reader of `c(i, j)` sees: the second size while the
      flag is set. `rows()` reports the first size in either state. */
  function ViewRows(c: Container): nat
    requires |c.sizes| == 2
  {
    if c.transposed then c.sizes[1] else c.sizes[0]
  }

  /** Columns of the matrix a reader of `c(i, j)` sees. */
  function ViewCols(c: Container): nat
    requires |c.sizes| == 2
  {
    if c.transposed then c.sizes[0] else c.sizes[1]
  }

  /** With the extents swapped while the flag is set, every access below them
      stays inside the buffer, for every shape. Where the reported extents
      are also safe (`Viewable`), the two agree. */
  lemma ViewOffsetInRange(c: Container, i: nat, j: nat)
    requires Valid(c) && |c.sizes| == 2 && i < ViewRows(c) && j < ViewCols(c)
    ensures Offset(c, i, j) < |c.buffer|
    ensures Viewable(c) ==> ViewRows(c) == Rows(c) && ViewCols(c) == Cols(c)
  {
    Rank2Layout(c);
    if c.transposed {
      MixedRadixBound(j, i, Rows(c), Cols(c));
    } else {
      MixedRadixBound(i, j, Rows(c), Cols(c));
    }
  }

  /** `rows()` and `columns()` ignore the flag: after `transpose()` on a
      2-by-3 matrix they still report 2 and 3, and the access (1, 2) below
      them reads flat position 7 of a 6-element buffer. */
  lemma TransposedExtentEscapes()
    ensures var c := Transpose(FromRows(2, 3, [1.0, 2.0, 3.0, 4.0, 5.0, 6.0]));
      && Valid(c) && c.transposed && Rows(c) == 2 && Cols(c) == 3
      && ViewRows(c) == 3 && ViewCols(c) == 2
      && Offset(c, 1, 2) == 7 && |c.buffer| == 6
  {
  }

  /** A flagged container read at a row i past the column count: the cell
      j * m + i still lies below n * m. */
  lemma WideReadBound(j: nat, i: nat, n: nat, m: nat)
    requires j < m <= i < n
    ensures j * m + i < n * m
  {
    MulStrictMonotone(j, m, m);
    MulMonotone(1, m, n - m);
    assert n * m == m * m + (n - m) * m;
  }

  /** On a flagged container with at least as many rows as columns, every
      access below the reported extents stays inside the buffer. */
  lemma TallTransposedInBuffer(c: Container, i: nat, j: nat)
    requires Valid(c) && |c.sizes| == 2 && c.transposed && Cols(c) <= Rows(c)
    requires i < Rows(c) && j < Cols(c)
    ensures Offset(c, i, j) < |c.buffer|
  {
    Rank2Layout(c);
    if i < Cols(c) {
      MixedRadixBound(j, i, Cols(c), Cols(c));
      MulMonotone(Cols(c), Rows(c), Cols(c));
    } else {
      WideReadBound(j, i, Rows(c), Cols(c));
    }
  }

  /** After `transpose()` on a 3-by-2 matrix the reported extents are still
      3 and 2; the reads below them stay in the buffer, but (0, 1) and
      (2, 0) read the same cell, so they do not show the transposed
      matrix. */
  lemma TallTransposedAliases()
    ensures var c := Transpose(FromRows(3, 2, [1.0, 2.0, 3.0, 4.0, 5.0, 6.0]));
      && Valid(c) && c.transposed && Rows(c) == 3 && Cols(c) == 2
      && Offset(c, 0, 1) == Offset(c, 2, 0) == 2 && |c.buffer| == 6
  {
  }

  /** The strides and cell count of an r-by-c container. */
  lemma Rank2Sizes(r: nat, c: nat)
    ensures RowMajorStrides([r, c]) == [c, 1] && Product([r, c]) == r * c
  {
    var s: seq<nat> := [r, c];
    assert s[1..] == [c] && s[2..] == [] && s[..1] == [r];
    assert Product([c]) == Product([]) * c;
    assert Product([r]) == Product([]) * r;
  }

  /** An untransposed r-by-c container holding the given row-major cells. */
  function FromRows(r: nat, c: nat, cells: seq<real>): (m: Container)
    requires r > 0 && c > 0 && |cells| == r * c
    ensures Viewable(m) && !m.transposed && Rows(m) == r && Cols(m) == c && m.buffer == cells
  {
    Rank2Sizes(r, c);
    Container(cells, false, [r, c], [c, 1])
  }

  /** The rank-2 view as a list of rows, `Grid(c)[i][j] == c(i, j)`. */
  function Grid(c: Container): (g: seq<seq<real>>)
    requires Viewable(c)
    ensures |g| == Rows(c)
    ensures forall i :: 0 <= i < |g| ==> |g[i]| == Cols(c)
    ensures forall i: nat, j: nat :: i < Rows(c) && j < Cols(c) ==> g[i][j] == Entry(c, i, j)
  {
    seq(Rows(c), i requires 0 <= i < Rows(c) => seq(Cols(c), j requires 0 <= j < Cols(c) => Entry(c, i, j)))
  }

  // ---------------------------------------------------------------------------
  // Weak transpose
  // ---------------------------------------------------------------------------

  /** The O(1) weak transpose: only the flag changes. */
  function Transpose(c: Container): (r: Container)
    requires Valid(c) && |c.sizes| == 2
    ensures Valid(r)
  {
    c.(transposed := !c.transposed)
  }

  /** After a weak transpose, `(i, j)` reads the cell the untransposed
      container reads at `(j, i)`, and nothing in the storage moved. */
  lemma TransposeView(c: Container, i: nat, j: nat)
    requires Valid(c) && |c.sizes| == 2 && Readable(c, [j, i])
    ensures Readable(Transpose(c), [i, j])
    ensures Get(Transpose(c), [i, j]) == Get(c, [j, i])
    ensures Transpose(c).buffer == c.buffer && Transpose(c).sizes == c.sizes
    ensures Transpose(c).strides == c.strides && Transpose(c).transposed != c.transposed
  {
    var t := Transpose(c);
    assert [i, j][1..] + [[i, j][0]] == [j, i];
    assert [j, i][1..] + [[j, i][0]] == [i, j];
    assert StoredOrder(t, [i, j]) == StoredOrder(c, [j, i]);
  }

  /** Applying the weak transpose twice restores the container. */
  lemma TransposeInvolution(c: Container)
    requires Valid(c) && |c.sizes| == 2
    ensures Transpose(Transpose(c)) == c
  {
  }

  /** `swap` as written: buffers, sizes and strides are exchanged, but each
      container takes the other's flag by copy, so the second one keeps its
      own flag and the first one's flag is lost. Both containers share a
      rank, which the source's single template type ensures. */
  function SwapAsWritten(a: Container, b: Container): (r: (Container, Container))
    requires Valid(a) && Valid(b) && |a.sizes| == |b.sizes|
    ensures Valid(r.0) && Valid(r.1)
    ensures r.0 == b
    ensures r.1.buffer == a.buffer && r.1.sizes == a.sizes && r.1.strides == a.strides
    ensures r.1.transposed == b.transposed
  {
    (b, a.(transposed := b.transposed))
  }

  /** Swapping twice as written restores both containers exactly when
      their flags agreed. */
  lemma SwapAsWrittenTwice(a: Container, b: Container)
    requires Valid(a) && Valid(b) && |a.sizes| == |b.sizes|
    ensures var (x, y) := SwapAsWritten(a, b);
      SwapAsWritten(x, y) == (a, b) <==> a.transposed == b.transposed
  {
  }

  /** `swap` exchanging the flag as well: the corrected counterpart of
      `SwapAsWritten`, whose line 77 copies the flag instead. */
  function Swap(a: Container, b: Container): (r: (Container, Container))
    requires Valid(a) && Valid(b)
    ensures Valid(r.0) && Valid(r.1)
    ensures r.0 == b && r.1 == a
  {
    (b, a)
  }

  /** The corrected swap differs from the written one only in the flag the
      second container ends with: its old one in the written swap, the
      first container's in the corrected one. */
  lemma SwapCorrectsFlag(a: Container, b: Container)
    requires Valid(a) && Valid(b) && |a.sizes| == |b.sizes|
    ensures Swap(a, b).0 == SwapAsWritten(a, b).0
    ensures Swap(a, b).1 == SwapAsWritten(a, b).1.(transposed := a.transposed)
    ensures Swap(a, b) == SwapAsWritten(a, b) <==> a.transposed == b.transposed
  {
  }

  /** Swapping twice restores both containers. */
  lemma SwapInvolution(a: Container, b: Container)
    requires Valid(a) && Valid(b)
    ensures var (x, y) := Swap(a, b); Swap(x, y) == (a, b)
  {
  }

  // ---------------------------------------------------------------------------
  // Elementwise operations on the buffer
  // ---------------------------------------------------------------------------

  /** Unary minus: every element negated in place. */
  function Negate(c: Container): (r: Container)
    ensures |r.buffer| == |c.buffer| && r.sizes == c.sizes && r.strides == c.strides
    ensures r.transposed == c.transposed
    ensures forall k :: 0 <= k < |c.buffer| ==> r.buffer[k] == -c.buffer[k]
  {
    c.(buffer := seq(|c.buffer|, k requires 0 <= k < |c.buffer| => -c.buffer[k]))
  }

  lemma NegateInvolution(c: Container)
    ensures Negate(Negate(c)) == c
  {
    assert Negate(Negate(c)).buffer == c.buffer;
  }

  predicate NonzeroCells(c: Container)
  {
    forall k :: 0 <= k < |c.buffer| ==> c.buffer[k] != 0.0
  }

  /** `reciprocals`: every element replaced by its multiplicative inverse. */
  function Reciprocals(c: Container): (r: Container)
    requires NonzeroCells(c)
    ensures |r.buffer| == |c.buffer| && r.sizes == c.sizes && r.strides == c.strides
    ensures r.transposed == c.transposed
    ensures NonzeroCells(r)
    ensures forall k :: 0 <= k < |c.buffer| ==> r.buffer[k] * c.buffer[k] == 1.0
  {
    c.(buffer := seq(|c.buffer|, k requires 0 <= k < |c.buffer| => 1.0 / c.buffer[k]))
  }

  lemma ReciprocalsInvolution(c: Container)
    requires NonzeroCells(c)
    ensures Reciprocals(Reciprocals(c)) == c
  {
    var r := Reciprocals(Reciprocals(c));
    forall k | 0 <= k < |c.buffer|
      ensures r.buffer[k] == c.buffer[k]
    {
      var x := c.buffer[k];
      assert 1.0 / (1.0 / x) == x;
    }
  }

  /** Divisors that an elementwise quotient by x would meet over c's cells. */
  predicate DivisorsNonzero(c: Container, op: Op, x: Container)
  {
    op == Over ==> forall k :: 0 <= k < |c.buffer| && k < |x.buffer| ==> x.buffer[k] != 0.0
  }

  /** The container's compound assignment `c op= x`: index by index over c's
      buffer, reading the same index of x. */
  function Combine(c: Container, op: Op, x: Container): (r: Container)
    requires |x.buffer| >= |c.buffer| && DivisorsNonzero(c, op, x)
    ensures |r.buffer| == |c.buffer| && r.sizes == c.sizes && r.strides == c.strides
    ensures r.transposed == c.transposed
    ensures forall k :: 0 <= k < |c.buffer| ==> r.buffer[k] == Apply(op, c.buffer[k], x.buffer[k])
  {
    c.(buffer := seq(|c.buffer|, k requires 0 <= k < |c.buffer| => Apply(op, c.buffer[k], x.buffer[k])))
  }

  /** The container's scalar `*=` as written: it adds s to every element. */
  function ScaleAsWritten(c: Container, s: real): (r: Container)
    ensures |r.buffer| == |c.buffer| && r.sizes == c.sizes && r.strides == c.strides
    ensures r.transposed == c.transposed
    ensures forall k :: 0 <= k < |c.buffer| ==> r.buffer[k] - c.buffer[k] == s
  {
    c.(buffer := seq(|c.buffer|, k requires 0 <= k < |c.buffer| => c.buffer[k] + s))
  }

  /** The scalar `*=` as intended: every element multiplied by s. */
  function Scale(c: Container, s: real): (r: Container)
    ensures |r.buffer| == |c.buffer| && r.sizes == c.sizes && r.strides == c.strides
    ensures r.transposed == c.transposed
    ensures forall k :: 0 <= k < |c.buffer| ==> r.buffer[k] == s * c.buffer[k]
  {
    c.(buffer := seq(|c.buffer|, k requires 0 <= k < |c.buffer| => s * c.buffer[k]))
  }

  /** The written scalar `*=` disagrees with multiplication: `[1] *= 2` gives
      `[3]` instead of `[2]`. */
  lemma ScaleAsWrittenAdds()
    ensures var c := Container([1.0], false, [1, 1], [1, 1]);
      ScaleAsWritten(c, 2.0).buffer == [3.0] && Scale(c, 2.0).buffer == [2.0]
  {
    var c := Container([1.0], false, [1, 1], [1, 1]);
    assert ScaleAsWritten(c, 2.0).buffer[0] == 3.0;
    assert Scale(c, 2.0).buffer[0] == 2.0;
  }

  /** Scaling by s and then by 1/s restores the container. */
  lemma ScaleInverse(c: Container, s: real)
    requires s != 0.0
    ensures Scale(Scale(c, s), 1.0 / s) == c
  {
    var r := Scale(Scale(c, s), 1.0 / s);
    forall k | 0 <= k < |c.buffer|
      ensures r.buffer[k] == c.buffer[k]
    {
      assert (1.0 / s) * (s * c.buffer[k]) == c.buffer[k];
    }
  }
}

=== FILE: facade.dfy ===
/** The `Matrix` facade: assignment from a matrix or from a lazy expression,
    the compound assignments, and the matrix product. Containers live in a
    store so that an expression's leaves may refer to the assignment's own
    target, as `K = (K + K) + (K + (K + K))` does. */
module Facade {
  import opened Numerics
  import opened Dense
  import opened Lazy
  import MatMul

  /** Two valid containers with equal sizes hold equally long buffers. */
  lemma SameSizesSameLength(a: Container, b: Container)
    requires Valid(a) && Valid(b) && a.sizes == b.sizes
    ensures |a.buffer| == |b.buffer|
  {
    ProductZero(a.sizes);
    if |a.sizes| > 0 && |a.buffer| != Product(a.sizes) {
      assert a.sizes[0] == 0;
    }
    if |b.sizes| > 0 && |b.buffer| != Product(b.sizes) {
      assert b.sizes[0] == 0;
    }
  }

  // ---------------------------------------------------------------------------
  // Assignment from a matrix of the same type
  // ---------------------------------------------------------------------------

  /** `operator=(Matrix const&)`: asserts equal sizes, then copies the other
      buffer element by element in storage order. The target keeps its own
      transposition flag. */
  function SameShapeAssign(target: Container, other: Container): (r: Result<Container>)
    requires Valid(target) && Valid(other)
    ensures r.Ok? <==> target.sizes == other.sizes
    ensures r.Err? ==> r.error == ShapeMismatch
    ensures r.Ok? ==> Valid(r.value) && r.value.buffer == other.buffer
    ensures r.Ok? ==> r.value.sizes == target.sizes && r.value.transposed == target.transposed
  {
    if target.sizes != other.sizes then Err(ShapeMismatch)
    else
      SameSizesSameLength(target, other);
      Ok(target.(buffer := other.buffer))
  }

  /** The copy is in storage order, so assigning a weakly transposed matrix
      to one that is not transposed stores the transpose of what the source
      matrix shows. */
  lemma SameShapeAssignIgnoresFlag(target: Container, other: Container, i: nat, j: nat)
    requires Viewable(target) && Viewable(other) && target.sizes == other.sizes
    requires other.transposed && !target.transposed
    requires i < Rows(target) && j < Cols(target)
    ensures SameShapeAssign(target, other).Ok?
    ensures Viewable(SameShapeAssign(target, other).value)
    ensures Entry(SameShapeAssign(target, other).value, i, j) == Entry(other, j, i)
  {
  }

  // ---------------------------------------------------------------------------
  // Assignment from a lazy expression
  // ---------------------------------------------------------------------------

  /** The shape assertion of the cross-type assignment: it fires only when
      both the target and the expression hold more than one element and the
      expression's shape differs from the target's sizes. */
  predicate ShapeRejects(target: Container, n: nat, shape: Result<seq<nat>>)
  {
    |target.buffer| > 1 && n > 1 && shape != Ok(target.sizes)
  }

  /** Every index the assignment loop visits is inside the target and inside
      every leaf it reads. */
  predicate Fits(st: Store, t: nat, e: Expr)
    requires t < |st| && Bound(e, st)
  {
    && Size(e, st) <= |st[t].buffer|
    && forall i :: 0 <= i < Size(e, st) ==> InBounds(e, st, i)
  }

  /** Wherever every read is in bounds, no quotient divides by zero. */
  predicate DivisorsNonzeroIn(st: Store, e: Expr)
    requires Bound(e, st)
  {
    forall i :: 0 <= i < Size(e, st) && InBounds(e, st, i) ==> Evaluable(e, st, i)
  }

  /** The target's buffer after the assignment, defined over the store as it
      was BEFORE the assignment: the first `Size(e)` elements are the
      expression's values, the rest keep their old values. */
  function Forced(st: Store, t: nat, e: Expr): (b: seq<real>)
    requires t < |st| && Bound(e, st) && Fits(st, t, e) && DivisorsNonzeroIn(st, e)
    ensures |b| == |st[t].buffer|
  {
    seq(|st[t].buffer|, k requires 0 <= k < |st[t].buffer| =>
      if k < Size(e, st) then Eval(e, st, k) else st[t].buffer[k])
  }

  /** The store after a successful assignment. */
  function Assigned(st: Store, t: nat, e: Expr): (r: Store)
    requires t < |st| && Bound(e, st) && Fits(st, t, e) && DivisorsNonzeroIn(st, e)
    ensures |r| == |st| && r[t].sizes == st[t].sizes && r[t].transposed == st[t].transposed
    ensures forall id :: 0 <= id < |st| && id != t ==> r[id] == st[id]
  {
    st[t := st[t].(buffer := Forced(st, t, e))]
  }

  /** The assignment loop: `target[index] = e[index]` for every index below
      `e.size()`, reading the store as it is at that moment, so a leaf that
      is the target itself shows the elements already overwritten. A read
      past the end of a buffer is `Err(OutOfRange)`. Because index k of an
      expression reads only index k of its leaves, the outcome equals
      evaluating the whole expression over the store before the loop. */
  method Force(st: Store, t: nat, e: Expr) returns (r: Result<Store>)
    requires t < |st| && Bound(e, st) && DivisorsNonzeroIn(st, e)
    ensures r.Err? <==> !Fits(st, t, e)
    ensures r.Err? ==> r.error == OutOfRange
    ensures r.Ok? ==> Fits(st, t, e) && r.value == Assigned(st, t, e)
  {
    var n := Size(e, st);
    var cur := st;
    var i := 0;
    while i < n
      invariant i <= n
      invariant |cur| == |st| && cur[t] == st[t].(buffer := cur[t].buffer)
      invariant forall id :: 0 <= id < |st| && id != t ==> cur[id] == st[id]
      invariant |cur[t].buffer| == |st[t].buffer| && i <= |st[t].buffer|
      invariant forall k :: i <= k < |st[t].buffer| ==> cur[t].buffer[k] == st[t].buffer[k]
      invariant forall k :: 0 <= k < i ==> InBounds(e, st, k) && Evaluable(e, st, k) && cur[t].buffer[k] == Eval(e, st, k)
    {
      assert AgreeAt(st, cur, i);
      EvalLocal(e, st, cur, i);
      if i >= |cur[t].buffer| || !InBounds(e, cur, i) {
        return Err(OutOfRange);
      }
      var v := Eval(e, cur, i);
      cur := cur[t := cur[t].(buffer := cur[t].buffer[i := v])];
      i := i + 1;
    }
    assert Fits(st, t, e);
    assert cur[t].buffer == Forced(st, t, e);
    return Ok(cur);
  }

  /** `operator=` from an expression, with the broadcasting shape rule: a
      shape mismatch is reported before any element is written. */
  method Assign(st: Store, t: nat, e: Expr) returns (r: Result<Store>)
    requires t < |st| && Bound(e, st) && DivisorsNonzeroIn(st, e)
    ensures r.Err? && r.error == ShapeMismatch <==> ShapeRejects(st[t], Size(e, st), Shape(e, st))
    ensures r.Err? && r.error == OutOfRange <==>
      !ShapeRejects(st[t], Size(e, st), Shape(e, st)) && !Fits(st, t, e)
    ensures r.Err? ==> r.error in {ShapeMismatch, OutOfRange}
    ensures r.Ok? ==> Fits(st, t, e) && r.value == Assigned(st, t, e)
  {
    if ShapeRejects(st[t], Size(e, st), Shape(e, st)) {
      return Err(ShapeMismatch);
    }
    r := Force(st, t, e);
  }

  /** `operator=` from an expression as written: the shape is the one the
      expression templates report, where `Addition` demands equal shapes
      even of a lifted scalar. */
  method AssignAsWritten(st: Store, t: nat, e: Expr) returns (r: Result<Store>)
    requires t < |st| && Bound(e, st) && DivisorsNonzeroIn(st, e)
    ensures r.Err? && r.error == ShapeMismatch <==> ShapeRejects(st[t], Size(e, st), ShapeAsWritten(e, st))
    ensures r.Err? && r.error == OutOfRange <==>
      !ShapeRejects(st[t], Size(e, st), ShapeAsWritten(e, st)) && !Fits(st, t, e)
    ensures r.Err? ==> r.error in {ShapeMismatch, OutOfRange}
    ensures r.Ok? ==> Fits(st, t, e) && r.value == Assigned(st, t, e)
  {
    if ShapeRejects(st[t], Size(e, st), ShapeAsWritten(e, st)) {
      return Err(ShapeMismatch);
    }
    r := Force(st, t, e);
  }

  /** Whatever the written rule lets through, the broadcasting rule lets
      through with the same outcome. */
  lemma BroadcastAcceptsMore(st: Store, t: nat, e: Expr)
    requires t < |st| && Bound(e, st)
    ensures !ShapeRejects(st[t], Size(e, st), ShapeAsWritten(e, st)) ==>
      !ShapeRejects(st[t], Size(e, st), Shape(e, st))
  {
    ShapeExtendsWritten(e, st);
  }

  /** `M = s + M` with M of more than one element: the written rule rejects
      it, the broadcasting rule accepts it and adds s to every element. */
  lemma ScalarSumAssignment(m: Container, s: real)
    requires Valid(m) && |m.buffer| > 1
    ensures var e := AddScalarLeft(s, Leaf(0));
      && Bound(e, [m]) && Size(e, [m]) == |m.buffer|
      && ShapeRejects(m, Size(e, [m]), ShapeAsWritten(e, [m]))
      && !ShapeRejects(m, Size(e, [m]), Shape(e, [m]))
      && Fits([m], 0, e) && DivisorsNonzeroIn([m], e)
      && forall k :: 0 <= k < |m.buffer| ==> Assigned([m], 0, e)[0].buffer[k] == s + m.buffer[k]
  {
    var e := AddScalarLeft(s, Leaf(0));
    ScalarSumShape(s, m);
  }

  // ---------------------------------------------------------------------------
  // Compound assignments
  // ---------------------------------------------------------------------------

  /** `+=`, `-=`, `*=` (by a matrix) and `/=`: the facade asserts equal
      sizes, then the container combines the buffers index by index. */
  function Compound(c: Container, op: Op, x: Container): (r: Result<Container>)
    requires Valid(c) && Valid(x) && DivisorsNonzero(c, op, x)
    ensures r.Ok? <==> c.sizes == x.sizes
    ensures r.Err? ==> r.error == ShapeMismatch
    ensures r.Ok? ==> Valid(r.value) && r.value.sizes == c.sizes && r.value.transposed == c.transposed
  {
    if c.sizes != x.sizes then Err(ShapeMismatch)
    else
      SameSizesSameLength(c, x);
      Ok(Combine(c, op, x))
  }

  /** `c op= x` stores what the assignment `c = c op x` stores. */
  lemma CompoundIsAssignment(c: Container, op: Op, x: Container)
    requires Valid(c) && Valid(x) && DivisorsNonzero(c, op, x) && c.sizes == x.sizes
    ensures var e := Node(op, Leaf(0), Leaf(1));
      && Bound(e, [c, x]) && Fits([c, x], 0, e) && DivisorsNonzeroIn([c, x], e)
      && !ShapeRejects(c, Size(e, [c, x]), Shape(e, [c, x]))
      && Compound(c, op, x) == Ok(Assigned([c, x], 0, e)[0])
  {
    var st := [c, x];
    var e := Node(op, Leaf(0), Leaf(1));
    SameSizesSameLength(c, x);
    assert Bound(Leaf(0), st) && Bound(Leaf(1), st) && Size(Leaf(0), st) == |c.buffer|;
    assert Size(e, st) == |c.buffer|;
    assert Fits(st, 0, e);
    assert Combine(c, op, x).buffer == Forced(st, 0, e);
  }

  /** Matrix-by-scalar `*=` as the container writes it: it adds the scalar.
      It agrees with assigning `c = c + s`, not `c = c * s`. */
  lemma ScalarCompoundAsWritten(c: Container, s: real)
    requires Valid(c)
    ensures var e := AddScalarRight(Leaf(0), s);
      && Bound(e, [c]) && Fits([c], 0, e) && DivisorsNonzeroIn([c], e)
      && ScaleAsWritten(c, s) == Assigned([c], 0, e)[0]
  {
    var e := AddScalarRight(Leaf(0), s);
    assert ScaleAsWritten(c, s).buffer == Forced([c], 0, e);
  }

  /** The intended matrix-by-scalar `*=` agrees with assigning `c = c * s`. */
  lemma ScalarCompound(c: Container, s: real)
    requires Valid(c)
    ensures var e := ScaleRight(Leaf(0), s);
      && Bound(e, [c]) && Fits([c], 0, e) && DivisorsNonzeroIn([c], e)
      && Scale(c, s) == Assigned([c], 0, e)[0]
  {
    var e := ScaleRight(Leaf(0), s);
    forall k | 0 <= k < |c.buffer|
      ensures Scale(c, s).buffer[k] == Forced([c], 0, e)[k]
    {
      assert Eval(e, [c], k) == c.buffer[k] * s;
    }
    assert Scale(c, s).buffer == Forced([c], 0, e);
  }

  // ---------------------------------------------------------------------------
  // The matrix product
  // ---------------------------------------------------------------------------

  /** `Multiply(secondFactor)`: asserts that the inner dimensions agree,
      creates a rows(A)-by-columns(B) zero matrix (whose constructor asserts
      nonzero sizes) and fills it with the product. */
  method MultiplyMatrices(a: Container, b: Container) returns (r: Result<Container>)
    requires Viewable(a) && Viewable(b)
    ensures r.Ok? <==> Cols(a) == Rows(b) && Rows(a) > 0 && Cols(b) > 0
    ensures r.Err? && Cols(a) != Rows(b) ==> r.error == ShapeMismatch
    ensures r.Err? && Cols(a) == Rows(b) ==> r.error == ZeroExtent
    ensures r.Ok? ==> Viewable(r.value) && !r.value.transposed
    ensures r.Ok? ==> Rows(r.value) == Rows(a) && Cols(r.value) == Cols(b)
    ensures r.Ok? ==> forall i: nat, j: nat :: i < Rows(a) && j < Cols(b) ==>
      Entry(r.value, i, j) == MatMul.ColumnDot(Grid(a), Grid(b), i, j, Cols(a))
  {
    if Cols(a) != Rows(b) {
      return Err(ShapeMismatch);
    }
    var sizes: seq<nat> := [Rows(a), Cols(b)];
    var made := New(2, sizes);
    assert AllPositive(sizes) <==> Rows(a) > 0 && Cols(b) > 0 by {
      assert sizes[0] == Rows(a) && sizes[1] == Cols(b);
    }
    if made.Err? {
      return Err(ZeroExtent);
    }
    var p := made.value;
    var m := MatMul.Multiply(p, a, b);
    return Ok(m);
  }
}

=== FILE: lazy.dfy ===
/** The lazy expression engine: the operators build a tree whose leaves are
    dense containers (held by reference, so modelled as indices into a store)
    or lifted scalars (held by value), and a tree is only ever read one flat
    index at a time. */
module Lazy {
  import opened Numerics
  import opened Dense

  /** An expression representation: a reference to a dense container, a
      lifted scalar, or one of the four elementwise nodes. */
  datatype Expr =
    | Leaf(id: nat)
    | Const(v: real)
    | Node(op: Op, left: Expr, right: Expr)

  /** The containers the leaves refer to. */
  type Store = seq<Container>

  /** Every leaf refers to a container of the store. */
  predicate Bound(e: Expr, st: Store)
  {
    match e
    case Leaf(id) => id < |st|
    case Const(_) => true
    case Node(_, a, b) => Bound(a, st) && Bound(b, st)
  }

  /** Every container of the store satisfies the container invariant. */
  predicate ValidStore(st: Store)
  {
    forall id :: 0 <= id < |st| ==> Valid(st[id])
  }

  predicate HasLeaf(e: Expr)
  {
    match e
    case Leaf(_) => true
    case Const(_) => false
    case Node(_, a, b) => HasLeaf(a) || HasLeaf(b)
  }

  /** The shapes the eight operator overloads can build: a scalar is only
      ever a direct operand of `+` or `*`, never both operands of one node,
      and never a whole expression. */
  predicate WellBuilt(e: Expr)
  {
    match e
    case Leaf(_) => true
    case Const(_) => false
    case Node(op, a, b) =>
      && (WellBuilt(a) || (a.Const? && (op == Plus || op == Times)))
      && (WellBuilt(b) || (b.Const? && (op == Plus || op == Times)))
      && !(a.Const? && b.Const?)
  }

  lemma {:induction false} WellBuiltHasLeaf(e: Expr)
    requires WellBuilt(e)
    ensures HasLeaf(e)
  {
    match e
    case Leaf(_) =>
    case Node(_, a, b) =>
      if WellBuilt(a) {
        WellBuiltHasLeaf(a);
      } else {
        WellBuiltHasLeaf(b);
      }
  }

  // ---------------------------------------------------------------------------
  // Reading one index
  // ---------------------------------------------------------------------------

  /** Index i can be read: every leaf read is inside its buffer (the dense
      `operator[]` asserts it) and no quotient divides by zero. */
  predicate Evaluable(e: Expr, st: Store, i: nat)
    decreases e, 0
  {
    match e
    case Leaf(id) => id < |st| && i < |st[id].buffer|
    case Const(_) => true
    case Node(op, a, b) =>
      && Evaluable(a, st, i) && Evaluable(b, st, i)
      && (op == Over ==> Eval(b, st, i) != 0.0)
  }

  /** `operator[]` of an expression: a leaf reads its flat buffer, a scalar
      returns its value whatever the index, a node combines its operands'
      values at the same index. */
  function Eval(e: Expr, st: Store, i: nat): real
    requires Evaluable(e, st, i)
    decreases e, 1
  {
    match e
    case Leaf(id) => st[id].buffer[i]
    case Const(v) => v
    case Node(op, a, b) => Apply(op, Eval(a, st, i), Eval(b, st, i))
  }

  /** `size()`: a leaf reports its buffer length, a scalar 0, and a node its
      first operand's size unless that is 0, then its second's. */
  function Size(e: Expr, st: Store): nat
    requires Bound(e, st)
  {
    match e
    case Leaf(id) => |st[id].buffer|
    case Const(_) => 0
    case Node(_, a, b) => if Size(a, st) != 0 then Size(a, st) else Size(b, st)
  }

  /** The first leaf met reading the tree left to right. */
  function Leftmost(e: Expr): nat
    requires HasLeaf(e)
  {
    match e
    case Leaf(id) => id
    case Node(_, a, b) => if HasLeaf(a) then Leftmost(a) else Leftmost(b)
  }

  /** A scalar never masks a container: the size of an expression is the
      buffer length of its leftmost leaf, and 0 exactly when it has no leaf. */
  lemma {:induction false} SizeIsLeftmostLeaf(e: Expr, st: Store)
    requires Bound(e, st) && ValidStore(st)
    ensures HasLeaf(e) ==> Leftmost(e) < |st| && Size(e, st) == |st[Leftmost(e)].buffer|
    ensures Size(e, st) == 0 <==> !HasLeaf(e)
  {
    match e
    case Leaf(id) =>
    case Const(_) =>
    case Node(_, a, b) =>
      SizeIsLeftmostLeaf(a, st);
      SizeIsLeftmostLeaf(b, st);
  }

  // ---------------------------------------------------------------------------
  // Shapes
  // ---------------------------------------------------------------------------

  /** `getSizesAlongEachDimension()` as written: `Addition` asserts that its
      operands' shapes agree (a scalar's shape is empty), `Subtraction`
      returns its first operand's shape unchecked, `Multiplication` and
      `Division` return the shape of the first operand of nonzero size. A
      failed assertion is `Err(ShapeMismatch)`. */
  function ShapeAsWritten(e: Expr, st: Store): Result<seq<nat>>
    requires Bound(e, st)
  {
    match e
    case Leaf(id) => Ok(st[id].sizes)
    case Const(_) => Ok([])
    case Node(op, a, b) =>
      match op
      case Plus =>
        var sa := ShapeAsWritten(a, st);
        var sb := ShapeAsWritten(b, st);
        if sa.Err? then sa else if sb.Err? then sb
        else if sa.value == sb.value then sa else Err(ShapeMismatch)
      case Minus => ShapeAsWritten(a, st)
      case _ => if Size(a, st) != 0 then ShapeAsWritten(a, st) else ShapeAsWritten(b, st)
  }

  /** The shape with `Addition` broadcasting a scalar operand the way
      `Multiplication` does: the shapes are compared only when both operands
      have a nonzero size. */
  function Shape(e: Expr, st: Store): Result<seq<nat>>
    requires Bound(e, st)
  {
    match e
    case Leaf(id) => Ok(st[id].sizes)
    case Const(_) => Ok([])
    case Node(op, a, b) =>
      match op
      case Plus =>
        if Size(a, st) == 0 then Shape(b, st)
        else if Size(b, st) == 0 then Shape(a, st)
        else
          var sa := Shape(a, st);
          var sb := Shape(b, st);
          if sa.Err? then sa else if sb.Err? then sb
          else if sa.value == sb.value then sa else Err(ShapeMismatch)
      case Minus => Shape(a, st)
      case _ => if Size(a, st) != 0 then Shape(a, st) else Shape(b, st)
  }

  /** The broadcasting rule only ever accepts more: wherever the written rule
      reports a shape, the broadcasting rule reports the same one. */
  lemma {:induction false} ShapeExtendsWritten(e: Expr, st: Store)
    requires Bound(e, st)
    ensures ShapeAsWritten(e, st).Ok? ==> Shape(e, st) == ShapeAsWritten(e, st)
  {
    match e
    case Leaf(_) =>
    case Const(_) =>
    case Node(_, a, b) =>
      ShapeExtendsWritten(a, st);
      ShapeExtendsWritten(b, st);
  }

  /** Every leaf of e refers to a container with the given sizes. */
  predicate LeavesShaped(e: Expr, st: Store, s: seq<nat>)
    requires Bound(e, st)
  {
    match e
    case Leaf(id) => st[id].sizes == s
    case Const(_) => true
    case Node(_, a, b) => LeavesShaped(a, st, s) && LeavesShaped(b, st, s)
  }

  /** An expression the operators can build over containers of one shape
      reports that shape (scalars broadcast). */
  lemma {:induction false} ShapeOfUniform(e: Expr, st: Store, s: seq<nat>)
    requires Bound(e, st) && ValidStore(st) && WellBuilt(e) && LeavesShaped(e, st, s)
    ensures Shape(e, st) == Ok(s)
  {
    match e
    case Leaf(_) =>
    case Node(op, a, b) =>
      SizeIsLeftmostLeaf(a, st);
      SizeIsLeftmostLeaf(b, st);
      if WellBuilt(a) {
        WellBuiltHasLeaf(a);
        ShapeOfUniform(a, st, s);
      }
      if WellBuilt(b) {
        WellBuiltHasLeaf(b);
        ShapeOfUniform(b, st, s);
      }
  }

  /** The written shape rule rejects a scalar sum over any container of
      positive rank, however the container is shaped: `2.3 + M` reports a
      shape mismatch, while the broadcasting rule reports M's shape. */
  lemma ScalarSumShape(s: real, c: Container)
    requires Valid(c) && |c.sizes| > 0
    ensures Bound(Node(Plus, Const(s), Leaf(0)), [c]) && Bound(Node(Plus, Leaf(0), Const(s)), [c])
    ensures ShapeAsWritten(Node(Plus, Const(s), Leaf(0)), [c]) == Err(ShapeMismatch)
    ensures ShapeAsWritten(Node(Plus, Leaf(0), Const(s)), [c]) == Err(ShapeMismatch)
    ensures Shape(Node(Plus, Const(s), Leaf(0)), [c]) == Ok(c.sizes)
    ensures Shape(Node(Plus, Leaf(0), Const(s)), [c]) == Ok(c.sizes)
  {
  }

  // ---------------------------------------------------------------------------
  // Locality of evaluation
  // ---------------------------------------------------------------------------

  /** Every leaf's read of flat index i lands inside its buffer: the dense
      `operator[]` asserts this on every read. */
  predicate InBounds(e: Expr, st: Store, i: nat)
  {
    match e
    case Leaf(id) => id < |st| && i < |st[id].buffer|
    case Const(_) => true
    case Node(_, a, b) => InBounds(a, st, i) && InBounds(b, st, i)
  }

  /** A readable index is in bounds; an in-bounds index is readable unless a
      quotient meets a zero divisor. */
  lemma {:induction false} EvaluableInBounds(e: Expr, st: Store, i: nat)
    ensures Evaluable(e, st, i) ==> InBounds(e, st, i)
    ensures InBounds(e, st, i) && !HasQuotient(e) ==> Evaluable(e, st, i)
  {
    match e
    case Leaf(_) =>
    case Const(_) =>
    case Node(_, a, b) =>
      EvaluableInBounds(a, st, i);
      EvaluableInBounds(b, st, i);
  }

  predicate HasQuotient(e: Expr)
  {
    e.Node? && (e.op == Over || HasQuotient(e.left) || HasQuotient(e.right))
  }

  /** Two stores agree at flat index i: same containers count, and each
      container has index i in range in both or neither, with the same value
      there. */
  predicate AgreeAt(st: Store, st': Store, i: nat)
  {
    && |st| == |st'|
    && forall id :: 0 <= id < |st| ==>
         && (i < |st[id].buffer| <==> i < |st'[id].buffer|)
         && (i < |st[id].buffer| ==> st[id].buffer[i] == st'[id].buffer[i])
  }

  /** Reading index i of an expression looks at index i of its leaves and
      nothing else: stores that agree there give the same result. */
  lemma {:induction false} EvalLocal(e: Expr, st: Store, st': Store, i: nat)
    requires Bound(e, st) && AgreeAt(st, st', i)
    ensures InBounds(e, st, i) <==> InBounds(e, st', i)
    ensures Evaluable(e, st, i) <==> Evaluable(e, st', i)
    ensures Evaluable(e, st, i) ==> Eval(e, st, i) == Eval(e, st', i)
  {
    match e
    case Leaf(id) =>
    case Const(_) =>
    case Node(_, a, b) =>
      EvalLocal(a, st, st', i);
      EvalLocal(b, st, st', i);
  }

  /** Stores with the same buffers lengths give every expression the same
      size. */
  lemma {:induction false} SizeLocal(e: Expr, st: Store, st': Store)
    requires Bound(e, st) && |st| == |st'|
    requires forall id :: 0 <= id < |st| ==> |st[id].buffer| == |st'[id].buffer|
    ensures Bound(e, st') && Size(e, st) == Size(e, st')
  {
    match e
    case Leaf(_) =>
    case Const(_) =>
    case Node(_, a, b) =>
      SizeLocal(a, st, st');
      SizeLocal(b, st, st');
  }

  /** Expressions read leaves through the flat index only, so a weak
      transpose of any leaf changes no value an expression produces. */
  lemma TransposeInvisible(e: Expr, st: Store, id: nat, i: nat)
    requires Bound(e, st) && id < |st| && Valid(st[id]) && |st[id].sizes| == 2
    ensures Evaluable(e, st, i) <==> Evaluable(e, st[id := Transpose(st[id])], i)
    ensures Evaluable(e, st, i) ==> Eval(e, st, i) == Eval(e, st[id := Transpose(st[id])], i)
  {
    EvalLocal(e, st, st[id := Transpose(st[id])], i);
  }

  /** For a weakly transposed n-by-n leaf, flat index `i * n + j` holds the
      logical element `(j, i)`, not `(i, j)`. */
  lemma FlatReadOfTransposedLeaf(st: Store, id: nat, i: nat, j: nat)
    requires id < |st| && Viewable(st[id]) && st[id].transposed
    requires i < Rows(st[id]) && j < Cols(st[id])
    ensures Evaluable(Leaf(id), st, i * Cols(st[id]) + j)
    ensures Eval(Leaf(id), st, i * Cols(st[id]) + j) == Entry(st[id], j, i)
  {
    OffsetInRange(st[id], j, i);
  }

  // ---------------------------------------------------------------------------
  // One node at a time
  // ---------------------------------------------------------------------------

  /** The size of one node from its operands' sizes. */
  lemma NodeSize(op: Op, a: Expr, b: Expr, st: Store)
    requires Bound(a, st) && Bound(b, st)
    ensures Bound(Node(op, a, b), st)
    ensures Size(Node(op, a, b), st) == if Size(a, st) != 0 then Size(a, st) else Size(b, st)
  {
  }

  /** The value of one node from its operands' values. */
  lemma NodeEval(op: Op, a: Expr, b: Expr, st: Store, i: nat)
    requires Evaluable(a, st, i) && Evaluable(b, st, i) && (op == Over ==> Eval(b, st, i) != 0.0)
    ensures InBounds(Node(op, a, b), st, i) <==> InBounds(a, st, i) && InBounds(b, st, i)
    ensures Evaluable(Node(op, a, b), st, i)
    ensures Eval(Node(op, a, b), st, i) == Apply(op, Eval(a, st, i), Eval(b, st, i))
  {
  }

  /** The written shape of a node whose operands report the same shape. */
  lemma NodeShapeAsWritten(op: Op, a: Expr, b: Expr, st: Store, s: seq<nat>)
    requires Bound(a, st) && Bound(b, st) && ShapeAsWritten(a, st) == Ok(s) && ShapeAsWritten(b, st) == Ok(s)
    ensures ShapeAsWritten(Node(op, a, b), st) == Ok(s)
  {
  }

  /** The written shape of a product with a lifted scalar on the left. */
  lemma ScaledShapeAsWritten(v: real, e: Expr, st: Store)
    requires Bound(e, st)
    ensures ShapeAsWritten(Node(Times, Const(v), e), st) == ShapeAsWritten(e, st)
  {
    assert Size(Const(v), st) == 0;
  }

  // ---------------------------------------------------------------------------
  // The operator overloads
  // ---------------------------------------------------------------------------

  /** `M1 + M2`. */
  function AddMatrices(a: Expr, b: Expr): (r: Expr)
    ensures WellBuilt(a) && WellBuilt(b) ==> WellBuilt(r)
    ensures forall st: Store, i: nat :: Evaluable(r, st, i) <==> Evaluable(a, st, i) && Evaluable(b, st, i)
    ensures forall st: Store, i: nat :: Evaluable(r, st, i) ==> Eval(r, st, i) == Eval(a, st, i) + Eval(b, st, i)
  {
    Node(Plus, a, b)
  }

  /** A lifted scalar operand contributes nothing to a node's size. */
  lemma ScalarOperandSize(op: Op, s: real, e: Expr)
    ensures forall st: Store :: Bound(e, st) ==>
      && Bound(Node(op, Const(s), e), st) && Size(Node(op, Const(s), e), st) == Size(e, st)
      && Bound(Node(op, e, Const(s)), st) && Size(Node(op, e, Const(s)), st) == Size(e, st)
  {
    forall st: Store | Bound(e, st)
      ensures Bound(Node(op, Const(s), e), st) && Size(Node(op, Const(s), e), st) == Size(e, st)
      ensures Bound(Node(op, e, Const(s)), st) && Size(Node(op, e, Const(s)), st) == Size(e, st)
    {
      assert Bound(Const(s), st) && Size(Const(s), st) == 0;
    }
  }

  /** `s + M`: the scalar is lifted on the left. */
  function AddScalarLeft(s: real, b: Expr): (r: Expr)
    ensures WellBuilt(b) ==> WellBuilt(r)
    ensures forall st: Store :: Bound(b, st) ==> Bound(r, st) && Size(r, st) == Size(b, st)
    ensures forall st: Store, i: nat :: Evaluable(r, st, i) <==> Evaluable(b, st, i)
    ensures forall st: Store, i: nat :: Evaluable(r, st, i) ==> Eval(r, st, i) == s + Eval(b, st, i)
  {
    ScalarOperandSize(Plus, s, b);
    Node(Plus, Const(s), b)
  }

  /** `M + s`: the scalar is lifted on the right. */
  function AddScalarRight(a: Expr, s: real): (r: Expr)
    ensures WellBuilt(a) ==> WellBuilt(r)
    ensures forall st: Store :: Bound(a, st) ==> Bound(r, st) && Size(r, st) == Size(a, st)
    ensures forall st: Store, i: nat :: Evaluable(r, st, i) <==> Evaluable(a, st, i)
    ensures forall st: Store, i: nat :: Evaluable(r, st, i) ==> Eval(r, st, i) == Eval(a, st, i) + s
  {
    ScalarOperandSize(Plus, s, a);
    Node(Plus, a, Const(s))
  }

  /** `M1 - M2`; there is no scalar form. */
  function SubtractMatrices(a: Expr, b: Expr): (r: Expr)
    ensures WellBuilt(a) && WellBuilt(b) ==> WellBuilt(r)
    ensures forall st: Store, i: nat :: Evaluable(r, st, i) <==> Evaluable(a, st, i) && Evaluable(b, st, i)
    ensures forall st: Store, i: nat :: Evaluable(r, st, i) ==> Eval(r, st, i) == Eval(a, st, i) - Eval(b, st, i)
  {
    Node(Minus, a, b)
  }

  /** `M1 * M2`: the elementwise (Hadamard) product, not the matrix product. */
  function MultiplyElementwise(a: Expr, b: Expr): (r: Expr)
    ensures WellBuilt(a) && WellBuilt(b) ==> WellBuilt(r)
    ensures forall st: Store, i: nat :: Evaluable(r, st, i) <==> Evaluable(a, st, i) && Evaluable(b, st, i)
    ensures forall st: Store, i: nat :: Evaluable(r, st, i) ==> Eval(r, st, i) == Eval(a, st, i) * Eval(b, st, i)
  {
    Node(Times, a, b)
  }

  /** The product node of `ScaleLeft` multiplies by the scalar at every index. */
  lemma ScaleLeftMeaning(s: real, b: Expr)
    ensures forall st: Store, i: nat :: Evaluable(Node(Times, Const(s), b), st, i) ==>
      Eval(Node(Times, Const(s), b), st, i) == s * Eval(b, st, i)
  {
    forall st: Store, i: nat | Evaluable(Node(Times, Const(s), b), st, i)
      ensures Eval(Node(Times, Const(s), b), st, i) == s * Eval(b, st, i)
    {
      var x := Eval(b, st, i);
      assert Eval(Node(Times, Const(s), b), st, i) == Apply(Times, s, x);
    }
  }

  /** `s * M`. */
  function ScaleLeft(s: real, b: Expr): (r: Expr)
    ensures WellBuilt(b) ==> WellBuilt(r)
    ensures forall st: Store :: Bound(b, st) ==> Bound(r, st) && Size(r, st) == Size(b, st)
    ensures forall st: Store, i: nat :: Evaluable(r, st, i) <==> Evaluable(b, st, i)
    ensures forall st: Store, i: nat :: Evaluable(r, st, i) ==> Eval(r, st, i) == s * Eval(b, st, i)
  {
    ScalarOperandSize(Times, s, b);
    ScaleLeftMeaning(s, b);
    Node(Times, Const(s), b)
  }

  /** The product node of `ScaleRight` multiplies by the scalar at every index. */
  lemma ScaleRightMeaning(a: Expr, s: real)
    ensures forall st: Store, i: nat :: Evaluable(Node(Times, a, Const(s)), st, i) ==>
      Eval(Node(Times, a, Const(s)), st, i) == Eval(a, st, i) * s
  {
    forall st: Store, i: nat | Evaluable(Node(Times, a, Const(s)), st, i)
      ensures Eval(Node(Times, a, Const(s)), st, i) == Eval(a, st, i) * s
    {
      var x := Eval(a, st, i);
      assert Eval(Node(Times, a, Const(s)), st, i) == Apply(Times, x, s);
    }
  }

  /** `M * s`. */
  function ScaleRight(a: Expr, s: real): (r: Expr)
    ensures WellBuilt(a) ==> WellBuilt(r)
    ensures forall st: Store :: Bound(a, st) ==> Bound(r, st) && Size(r, st) == Size(a, st)
    ensures forall st: Store, i: nat :: Evaluable(r, st, i) <==> Evaluable(a, st, i)
    ensures forall st: Store, i: nat :: Evaluable(r, st, i) ==> Eval(r, st, i) == Eval(a, st, i) * s
  {
    ScalarOperandSize(Times, s, a);
    ScaleRightMeaning(a, s);
    Node(Times, a, Const(s))
  }

  /** `M1 / M2`; there is no scalar form. */
  function DivideMatrices(a: Expr, b: Expr): (r: Expr)
    ensures WellBuilt(a) && WellBuilt(b) ==> WellBuilt(r)
    ensures forall st: Store, i: nat :: Evaluable(r, st, i) <==>
      Evaluable(a, st, i) && Evaluable(b, st, i) && Eval(b, st, i) != 0.0
    ensures forall st: Store, i: nat :: Evaluable(r, st, i) ==> Eval(r, st, i) == Eval(a, st, i) / Eval(b, st, i)
  {
    Node(Over, a, b)
  }

  /** The builders' inverse pairs: `(M1 + M2) - M2` reads M1 wherever M1
      and M2 are readable, and `(M1 / M2) * M2` reads M1 wherever the
      quotient is readable. */
  lemma BuildersInvert(a: Expr, b: Expr, st: Store, i: nat)
    ensures Evaluable(SubtractMatrices(AddMatrices(a, b), b), st, i) <==> Evaluable(a, st, i) && Evaluable(b, st, i)
    ensures Evaluable(a, st, i) && Evaluable(b, st, i) ==>
      Eval(SubtractMatrices(AddMatrices(a, b), b), st, i) == Eval(a, st, i)
    ensures Evaluable(DivideMatrices(a, b), st, i) ==>
      && Evaluable(MultiplyElementwise(DivideMatrices(a, b), b), st, i)
      && Eval(MultiplyElementwise(DivideMatrices(a, b), b), st, i) == Eval(a, st, i)
  {
    if Evaluable(DivideMatrices(a, b), st, i) {
      var d := Eval(b, st, i);
      assert d != 0.0;
      assert Eval(a, st, i) / d * d == Eval(a, st, i);
    }
  }

  /** A scalar leaf returns its value at every index, reports size 0 and an
      empty shape. */
  lemma ScalarLeaf(v: real, st: Store, i: nat)
    ensures Evaluable(Const(v), st, i) && Eval(Const(v), st, i) == v
    ensures Size(Const(v), st) == 0 && Shape(Const(v), st) == Ok([])
  {
  }

  /** Lifting a scalar on either side of `+` or `*` gives the same values,
      size and shape. */
  lemma ScalarSidesAgree(s: real, e: Expr, st: Store, i: nat)
    requires Bound(e, st) && ValidStore(st) && HasLeaf(e)
    ensures Size(AddScalarLeft(s, e), st) == Size(AddScalarRight(e, s), st)
    ensures Shape(AddScalarLeft(s, e), st) == Shape(AddScalarRight(e, s), st)
    ensures Size(ScaleLeft(s, e), st) == Size(ScaleRight(e, s), st)
    ensures Shape(ScaleLeft(s, e), st) == Shape(ScaleRight(e, s), st)
    ensures Evaluable(e, st, i) ==>
      && Eval(AddScalarLeft(s, e), st, i) == Eval(AddScalarRight(e, s), st, i)
      && Eval(ScaleLeft(s, e), st, i) == Eval(ScaleRight(e, s), st, i)
  {
    SizeIsLeftmostLeaf(e, st);
  }
}

=== FILE: multiply.dfy ===
/** The container-level matrix product: every (i, j) of the target receives
    the sum over k of `A(i, k) * B(k, j)`, accumulated in column order. */
module MatMul {
  import opened Dense
  import Solve

  /** `sum over k < n of a[i][k] * b[k][j]`, accumulated from k = 0 upward. */
  function ColumnDot(a: seq<seq<real>>, b: seq<seq<real>>, i: nat, j: nat, n: nat): real
    requires i < |a| && n <= |a[i]| && n <= |b|
    requires forall k :: 0 <= k < n ==> j < |b[k]|
  {
    if n == 0 then 0.0 else ColumnDot(a, b, i, j, n - 1) + a[i][n - 1] * b[n - 1][j]
  }

  /** The shapes the product loop needs: the target is rows(A) by
      columns(B), and the inner dimension agrees. */
  predicate Conformable(p: Container, a: Container, b: Container)
  {
    && Viewable(p) && Viewable(a) && Viewable(b)
    && Cols(a) == Rows(b) && Rows(p) == Rows(a) && Cols(p) == Cols(b)
  }

  /** The innermost loop: accumulates one entry of the product. */
  method EntryOfProduct(a: Container, b: Container, i: nat, j: nat) returns (s: real)
    requires Viewable(a) && Viewable(b) && Cols(a) == Rows(b) && i < Rows(a) && j < Cols(b)
    ensures s == ColumnDot(Grid(a), Grid(b), i, j, Cols(a))
  {
    ghost var ga, gb := Grid(a), Grid(b);
    s := 0.0;
    var k := 0;
    while k < Cols(a)
      invariant k <= Cols(a)
      invariant s == ColumnDot(ga, gb, i, j, k)
    {
      assert Entry(a, i, k) == ga[i][k] && Entry(b, k, j) == gb[k][j];
      s := s + Entry(a, i, k) * Entry(b, k, j);
      k := k + 1;
    }
  }

  /** Every entry of the target written so far (rows before i, and row i up
      to column j) holds its product entry. */
  ghost predicate FilledUpTo(r: Container, a: Container, b: Container, i: nat, j: nat)
    requires Conformable(r, a, b)
  {
    forall p: nat, q: nat :: p < Rows(r) && q < Cols(r) && (p < i || (p == i && q < j)) ==>
      Entry(r, p, q) == ColumnDot(Grid(a), Grid(b), p, q, Cols(a))
  }

  /** `Multiply(A, B)` on the target container p: afterwards every entry of
      the target is the corresponding entry of A times B, and its shape,
      strides and transposition flag are unchanged. */
  method Multiply(p: Container, a: Container, b: Container) returns (r: Container)
    requires Conformable(p, a, b)
    ensures Viewable(r) && r.sizes == p.sizes && r.strides == p.strides && r.transposed == p.transposed
    ensures forall i: nat, j: nat :: i < Rows(r) && j < Cols(r) ==>
      Entry(r, i, j) == ColumnDot(Grid(a), Grid(b), i, j, Cols(a))
  {
    r := p;
    var i := 0;
    while i < Rows(a)
      invariant i <= Rows(a)
      invariant Conformable(r, a, b) && r.sizes == p.sizes && r.strides == p.strides && r.transposed == p.transposed
      invariant FilledUpTo(r, a, b, i, 0)
    {
      var j := 0;
      while j < Cols(b)
        invariant j <= Cols(b)
        invariant Conformable(r, a, b) && r.sizes == p.sizes && r.strides == p.strides && r.transposed == p.transposed
        invariant FilledUpTo(r, a, b, i, j)
      {
        var s := EntryOfProduct(a, b, i, j);
        r := SetEntry(r, i, j, s);
        j := j + 1;
      }
      i := i + 1;
    }
  }

  /** Multiplying by a column vector is the row product of the triangular
      solver: the two sums agree term by term. */
  lemma {:induction false} ColumnDotIsRowDot(a: seq<seq<real>>, xs: seq<seq<real>>, x: seq<real>, i: nat, n: nat)
    requires i < |a| && n <= |a[i]| && n <= |xs| && n <= |x|
    requires forall k :: 0 <= k < n ==> |xs[k]| == 1 && xs[k][0] == x[k]
    ensures ColumnDot(a, xs, i, 0, n) == Solve.RowDot(a, x, i, 0, n)
  {
    if n > 0 {
      ColumnDotIsRowDot(a, xs, x, i, n - 1);
      Solve.RowDotLast(a, x, i, 0, n);
    }
  }

  /** The cells of an n-by-1 container, read top to bottom, are its buffer. */
  lemma ColumnCells(v: Container)
    requires Viewable(v) && Cols(v) == 1 && Rows(v) > 0
    ensures |v.buffer| == Rows(v)
    ensures forall k: nat :: k < Rows(v) ==> Entry(v, k, 0) == v.buffer[k]
  {
    Rank2Layout(v);
  }

  /** A solution of `t · x = b` stored as an n-by-1 container reproduces b
      when multiplied back by t. */
  lemma SolutionReproducesRightSide(t: Container, v: Container, b: seq<real>)
    requires Viewable(t) && Viewable(v) && Cols(v) == 1 && Rows(v) == Cols(t) > 0
    requires Solve.Solves(t, v.buffer, b)
    ensures forall i: nat :: i < |b| ==> ColumnDot(Grid(t), Grid(v), i, 0, Cols(t)) == b[i]
  {
    ColumnCells(v);
    forall i: nat | i < |b|
      ensures ColumnDot(Grid(t), Grid(v), i, 0, Cols(t)) == b[i]
    {
      ColumnDotIsRowDot(Grid(t), Grid(v), v.buffer, i, Cols(t));
    }
  }
}

=== FILE: numerics.dfy ===
/** Shared arithmetic vocabulary of the matrix library: the product of a
    size list, the four elementwise operators, and the failure outcomes the
    library's assertions stand for. */
module Numerics {

  /** Modulus of the source's unsigned index arithmetic (64-bit size_t). */
  const SizeModulus: nat := 0x1_0000_0000_0000_0000

  /** Failures the library signals through its assertions on ordinary input. */
  datatype Error =
    | ZeroExtent      // a container was given sizes whose product is zero
    | ShapeMismatch   // two operands' per-dimension sizes had to agree and did not
    | NotTriangular   // a triangular solve was asked of a matrix that is neither lower nor upper triangular
    | OutOfRange      // a flat index reached past the end of a buffer

  datatype Result<+T> = Ok(value: T) | Err(error: Error)

  /** The four binary operators of the lazy engine and of the compound assignments. */
  datatype Op = Plus | Minus | Times | Over

  /** Applies one operator to two element values; a quotient needs a nonzero divisor. */
  function Apply(op: Op, x: real, y: real): real
    requires op == Over ==> y != 0.0
  {
    match op
    case Plus => x + y
    case Minus => x - y
    case Times => x * y
    case Over => x / y
  }

  /** Product of a list of sizes; the empty list has product 1. */
  function Product(s: seq<nat>): nat
  {
    if |s| == 0 then 1 else Product(s[..|s| - 1]) * s[|s| - 1]
  }

  lemma {:induction false} ProductAppend(a: seq<nat>, b: seq<nat>)
    ensures Product(a + b) == Product(a) * Product(b)
    decreases |b|
  {
    if |b| == 0 {
      assert a + b == a;
    } else {
      var b' := b[..|b| - 1];
      assert (a + b)[..|a + b| - 1] == a + b';
      ProductAppend(a, b');
      calc {
        Product(a + b);
        Product(a + b') * b[|b| - 1];
        Product(a) * Product(b') * b[|b| - 1];
        Product(a) * Product(b);
      }
    }
  }

  /** The product can also be peeled from the front. */
  lemma {:induction false} ProductCons(s: seq<nat>)
    requires |s| > 0
    ensures Product(s) == s[0] * Product(s[1..])
  {
    assert s == [s[0]] + s[1..];
    ProductAppend([s[0]], s[1..]);
    assert Product([s[0]]) == Product([]) * s[0];
  }

  /** A product is zero exactly when one of its factors is. */
  lemma {:induction false} ProductZero(s: seq<nat>)
    ensures Product(s) == 0 <==> exists k :: 0 <= k < |s| && s[k] == 0
    decreases |s|
  {
    if |s| > 0 {
      var s' := s[..|s| - 1];
      ProductZero(s');
      if Product(s) == 0 {
        if s[|s| - 1] != 0 {
          assert Product(s') == 0;
          var k :| 0 <= k < |s'| && s'[k] == 0;
          assert s[k] == 0;
        }
      } else {
        forall k | 0 <= k < |s|
          ensures s[k] != 0
        {
          if k < |s| - 1 {
            assert s[k] == s'[k];
          }
        }
      }
    }
  }

  /** The size-list product as the source computes it: a running product
      over the list, starting from 1. */
  method VectorProduct(v: seq<nat>) returns (p: nat)
    ensures p == Product(v)
    ensures |v| == 0 ==> p == 1
    ensures p == 0 <==> exists k :: 0 <= k < |v| && v[k] == 0
  {
    p := 1;
    var i := 0;
    while i < |v|
      invariant 0 <= i <= |v|
      invariant p == Product(v[..i])
    {
      assert v[..i + 1][..i] == v[..i];
      p := p * v[i];
      i := i + 1;
    }
    assert v[..|v|] == v;
    ProductZero(v);
  }
}

=== FILE: render.dfy ===
/** `operator<<` for two-dimensional matrices: the elements of each row in
    logical order, separated by commas, and a line break after every row.
    How one element is written is the stream's business, so it is a
    parameter here. */
module Render {
  import opened Dense

  /** The first n cells of row i as the printer writes them: each cell,
      followed by a comma unless it is the row's last cell. */
  function RowText(c: Container, show: real -> string, i: nat, n: nat): string
    requires Viewable(c) && i < Rows(c) && n <= Cols(c)
  {
    if n == 0 then []
    else RowText(c, show, i, n - 1) + show(Entry(c, i, n - 1)) + (if n != Cols(c) then [','] else [])
  }

  /** The first m rows as the printer writes them, each ended by a line break
      (`"\n"` between rows, `std::endl` after the last). */
  function Text(c: Container, show: real -> string, m: nat): string
    requires Viewable(c) && m <= Rows(c)
  {
    if m == 0 then [] else Text(c, show, m - 1) + RowText(c, show, m - 1, Cols(c)) + ['\n']
  }

  /** The printing loops. */
  method Print(c: Container, show: real -> string) returns (out: string)
    requires Viewable(c)
    ensures out == Text(c, show, Rows(c))
    ensures Rows(c) == 0 <==> out == []
    ensures Rows(c) > 0 ==> out[|out| - 1] == '\n'
  {
    out := [];
    var i := 0;
    while i != Rows(c)
      invariant i <= Rows(c)
      invariant out == Text(c, show, i)
    {
      var j := 0;
      while j != Cols(c)
        invariant j <= Cols(c)
        invariant out == Text(c, show, i) + RowText(c, show, i, j)
      {
        out := out + show(Entry(c, i, j));
        if j + 1 != Cols(c) {
          out := out + [','];
        }
        j := j + 1;
      }
      out := out + ['\n'];
      i := i + 1;
    }
  }

  // ---------------------------------------------------------------------------
  // Reading the text back
  // ---------------------------------------------------------------------------

  /** The fields of s between occurrences of sep (one more field than there
      are separators). */
  function Split(s: string, sep: char): (r: seq<string>)
    ensures |r| > 0
  {
    if |s| == 0 then [[]]
    else if s[|s| - 1] == sep then Split(s[..|s| - 1], sep) + [[]]
    else
      var p := Split(s[..|s| - 1], sep);
      p[..|p| - 1] + [p[|p| - 1] + [s[|s| - 1]]]
  }

  /** Appending text without a separator extends the last field only. */
  lemma {:induction false} SplitExtend(s: string, t: string, sep: char)
    requires sep !in t
    ensures var p := Split(s, sep);
      Split(s + t, sep) == p[..|p| - 1] + [p[|p| - 1] + t]
    decreases |t|
  {
    var p := Split(s, sep);
    if |t| == 0 {
      assert t == [] && s + t == s;
      assert p[|p| - 1] + t == p[|p| - 1];
      assert p[..|p| - 1] + [p[|p| - 1]] == p;
    } else {
      var t' := t[..|t| - 1];
      assert sep !in t' by {
        forall k | 0 <= k < |t'| ensures t'[k] != sep { assert t'[k] == t[k]; }
      }
      SplitExtend(s, t', sep);
      assert (s + t)[..|s + t| - 1] == s + t';
      assert (s + t)[|s + t| - 1] == t[|t| - 1];
      assert (p[|p| - 1] + t') + [t[|t| - 1]] == p[|p| - 1] + t;
    }
  }

  /** Appending a separator opens a new, empty field. */
  lemma SplitSeparator(s: string, sep: char)
    ensures Split(s + [sep], sep) == Split(s, sep) + [[]]
  {
    assert (s + [sep])[..|s|] == s;
  }

  /** Fields written one after another with a separator between each two. */
  function Join(fields: seq<string>, sep: char): (s: string)
    requires |fields| > 0
  {
    if |fields| == 1 then fields[0]
    else Join(fields[..|fields| - 1], sep) + [sep] + fields[|fields| - 1]
  }

  /** Splitting undoes joining, provided no field holds the separator. */
  lemma {:induction false} SplitJoin(fields: seq<string>, sep: char)
    requires |fields| > 0
    requires forall k :: 0 <= k < |fields| ==> sep !in fields[k]
    ensures Split(Join(fields, sep), sep) == fields
  {
    var last := fields[|fields| - 1];
    if |fields| == 1 {
      SplitExtend([], last, sep);
      assert [] + last == last;
      assert fields == [last];
    } else {
      var pre := fields[..|fields| - 1];
      SplitJoin(pre, sep);
      SplitSeparator(Join(pre, sep), sep);
      SplitExtend(Join(pre, sep) + [sep], last, sep);
      assert (pre + [[]])[..|pre|] == pre;
      assert [] + last == last;
      assert pre + [last] == fields;
    }
  }

  /** No element is written with a comma or a line break inside. */
  ghost predicate PlainCells(show: real -> string)
  {
    forall x: real :: ',' !in show(x) && '\n' !in show(x)
  }

  /** The cells of row i as strings. */
  function Cells(c: Container, show: real -> string, i: nat, n: nat): (r: seq<string>)
    requires Viewable(c) && i < Rows(c) && n <= Cols(c)
    ensures |r| == n
    ensures forall j :: 0 <= j < n ==> r[j] == show(Entry(c, i, j))
  {
    seq(n, j requires 0 <= j < n => show(Entry(c, i, j)))
  }

  /** A printed row prefix is its cells joined by commas, with a trailing
      comma while the row is unfinished. */
  lemma {:induction false} RowTextIsJoin(c: Container, show: real -> string, i: nat, n: nat)
    requires Viewable(c) && i < Rows(c) && 0 < n <= Cols(c)
    ensures RowText(c, show, i, n) == Join(Cells(c, show, i, n), ',') + (if n != Cols(c) then [','] else [])
  {
    var cells := Cells(c, show, i, n);
    if n == 1 {
      assert RowText(c, show, i, 0) == [];
    } else {
      RowTextIsJoin(c, show, i, n - 1);
      assert cells[..n - 1] == Cells(c, show, i, n - 1);
    }
  }

  /** A valid matrix with a row has a column. */
  lemma RowsHaveColumns(c: Container)
    requires Viewable(c) && Rows(c) > 0
    ensures Cols(c) > 0
  {
    Rank2Sizes(Rows(c), Cols(c));
    assert c.sizes == [Rows(c), Cols(c)];
    assert c.sizes[0] != 0;
  }

  /** Splitting a printed row at its commas gives back every element's
      text, in column order. */
  lemma RowFields(c: Container, show: real -> string, i: nat)
    requires Viewable(c) && i < Rows(c) && PlainCells(show)
    ensures Split(RowText(c, show, i, Cols(c)), ',') == Cells(c, show, i, Cols(c))
  {
    RowsHaveColumns(c);
    var cells := Cells(c, show, i, Cols(c));
    RowTextIsJoin(c, show, i, Cols(c));
    forall k | 0 <= k < |cells|
      ensures ',' !in cells[k]
    {
      assert cells[k] == show(Entry(c, i, k));
    }
    SplitJoin(cells, ',');
    assert Join(cells, ',') + [] == Join(cells, ',');
  }

  lemma {:induction false} NoBreakInRow(c: Container, show: real -> string, i: nat, n: nat)
    requires Viewable(c) && i < Rows(c) && n <= Cols(c) && PlainCells(show)
    ensures '\n' !in RowText(c, show, i, n)
  {
    if n > 0 {
      NoBreakInRow(c, show, i, n - 1);
      assert '\n' !in show(Entry(c, i, n - 1));
    }
  }

  /** The printed rows, each without its line break. */
  function Lines(c: Container, show: real -> string, m: nat): (r: seq<string>)
    requires Viewable(c) && m <= Rows(c)
    ensures |r| == m
    ensures forall i :: 0 <= i < m ==> r[i] == RowText(c, show, i, Cols(c))
  {
    seq(m, i requires 0 <= i < m => RowText(c, show, i, Cols(c)))
  }

  /** The first m printed rows are the rows joined by line breaks, plus the
      final line break. */
  lemma {:induction false} TextIsJoin(c: Container, show: real -> string, m: nat)
    requires Viewable(c) && 0 < m <= Rows(c)
    ensures Text(c, show, m) == Join(Lines(c, show, m), '\n') + ['\n']
  {
    var lines := Lines(c, show, m);
    if m == 1 {
      assert Text(c, show, 0) == [];
    } else {
      TextIsJoin(c, show, m - 1);
      assert lines[..m - 1] == Lines(c, show, m - 1);
    }
  }

  /** The printed text of a matrix has one line per row, and each line splits
      at its commas into the row's elements: printing loses no element and
      adds none. */
  lemma PrintedLayout(c: Container, show: real -> string)
    requires Viewable(c) && PlainCells(show)
    ensures var lines := Split(Text(c, show, Rows(c)), '\n');
      && |lines| == Rows(c) + 1 && lines[Rows(c)] == []
      && forall i :: 0 <= i < Rows(c) ==> Split(lines[i], ',') == Cells(c, show, i, Cols(c))
  {
    var m := Rows(c);
    if m > 0 {
      var lines := Lines(c, show, m);
      TextIsJoin(c, show, m);
      forall k | 0 <= k < m
        ensures '\n' !in lines[k]
      {
        NoBreakInRow(c, show, k, Cols(c));
      }
      SplitJoin(lines, '\n');
      SplitSeparator(Join(lines, '\n'), '\n');
      forall i | 0 <= i < m
        ensures Split(lines[i], ',') == Cells(c, show, i, Cols(c))
      {
        RowFields(c, show, i);
      }
    }
  }
}

=== FILE: scenarios.dfy ===
/** The worked examples of the library's demonstration program, stated over
    the model: the weak and strong transposes of A, triangularity of D and E, solving E x = B, the 1-by-1 scalar
    sum, and the two assignments whose target also appears on the right. */
module Scenarios {
  import opened Numerics
  import opened Dense
  import opened Triangular
  import opened Lazy
  import Solve
  import Facade
  import CacheOblivious

  /** A(i, j) = 1 + i + 2 j on a 3-by-3 matrix: [[1, 3, 5], [2, 4, 6], [3, 5, 7]]. */
  function MatrixA(): (a: Container)
    ensures Viewable(a) && Rows(a) == 3 && Cols(a) == 3 && !a.transposed
    ensures forall i: nat, j: nat :: i < 3 && j < 3 ==> Entry(a, i, j) == (1 + i + 2 * j) as real
  {
    var a := FromRows(3, 3, [1.0, 3.0, 5.0, 2.0, 4.0, 6.0, 3.0, 5.0, 7.0]);
    assert forall i: nat, j: nat :: i < 3 && j < 3 ==> Entry(a, i, j) == a.buffer[3 * i + j];
    a
  }

  /** After `A.transpose()` the storage is untouched, yet (0, 2) reads 3,
      the value A held at (2, 0), where before it read 5. */
  lemma WeakTransposeOfA()
    ensures var a := MatrixA();
      && Viewable(Transpose(a)) && Transpose(a).buffer == a.buffer
      && Entry(a, 0, 2) == 5.0 && Entry(Transpose(a), 0, 2) == 3.0
  {
    var a := MatrixA();
    EntryIsGet(a, 2, 0);
    TransposeView(a, 0, 2);
    EntryIsGet(Transpose(a), 0, 2);
  }

  /** `A.strongTranspose()` on the weakly transposed A moves the elements to
      where the view shows them and clears the flag, which brings back A's
      original storage. */
  method StrongTransposeOfWeakA() returns (r: Result<Container>)
    ensures r == Ok(MatrixA())
  {
    var a := MatrixA();
    var t := Transpose(a);
    r := CacheOblivious.StrongTranspose(t);
    forall i: nat, j: nat | i < 3 && j < 3
      ensures Entry(r.value, i, j) == Entry(a, i, j)
    {
      assert Offset(t, j, i) == Offset(a, i, j);
    }
    CacheOblivious.EntriesDetermineBuffer(r.value, a);
  }

  /** D = [[1, 2, 3], [0, 4, 0], [5, 6, 7]] has nonzero entries above its
      diagonal. */
  lemma MatrixDNotLower()
    ensures var d := FromRows(3, 3, [1.0, 2.0, 3.0, 0.0, 4.0, 0.0, 5.0, 6.0, 7.0]);
      !LowerTriangular(d) && !UpperTriangular(d)
  {
    var d := FromRows(3, 3, [1.0, 2.0, 3.0, 0.0, 4.0, 0.0, 5.0, 6.0, 7.0]);
    assert Offset(d, 0, 1) == 1 && Offset(d, 2, 0) == 6;
    assert Entry(d, 0, 1) == 2.0;
    assert Entry(d, 2, 0) == 5.0;
  }

  /** E = [[1, 0, 0], [2, 3, 0], [4, 5, 6]]. */
  function MatrixE(): (e: Container)
    ensures Viewable(e) && Rows(e) == 3 && Cols(e) == 3
  {
    FromRows(3, 3, [1.0, 0.0, 0.0, 2.0, 3.0, 0.0, 4.0, 5.0, 6.0])
  }

  /** E is lower triangular with a nonzero diagonal. */
  lemma MatrixEIsLower()
    ensures LowerTriangular(MatrixE()) && Solve.NonzeroDiagonal(MatrixE())
  {
    var e := MatrixE();
    forall i: nat, j: nat | i < 3 && j < 3
      ensures Entry(e, i, j) == e.buffer[3 * i + j]
    {
    }
  }

  /** x = [1, 0, -1/6] solves E x = [1, 2, 3]. */
  lemma MatrixESolution()
    ensures Solve.Solves(MatrixE(), [1.0, 0.0, -1.0 / 6.0], [1.0, 2.0, 3.0])
  {
    var e := MatrixE();
    var m := Grid(e);
    var x := [1.0, 0.0, -1.0 / 6.0];
    forall i: nat, j: nat | i < 3 && j < 3
      ensures m[i][j] == e.buffer[3 * i + j]
    {
    }
    forall i | 0 <= i < 3
      ensures Solve.RowDot(m, x, i, 0, 3) == m[i][0] * x[0] + m[i][1] * x[1] + m[i][2] * x[2]
    {
      Solve.RowDotLast(m, x, i, 0, 3);
      Solve.RowDotLast(m, x, i, 0, 2);
      Solve.RowDotLast(m, x, i, 0, 1);
    }
  }

  /** `E.span(B)` with B = [1, 2, 3] as a column: the coefficients are
      exactly [1, 0, -1/6]. */
  method SpanOfE() returns (r: Result<Container>)
    ensures r.Ok? && r.value.buffer == [1.0, 0.0, -1.0 / 6.0]
  {
    var e := MatrixE();
    var b := FromRows(3, 1, [1.0, 2.0, 3.0]);
    MatrixEIsLower();
    r := Solve.SpanAsWritten(e, b);
    MatrixESolution();
    Solve.LowerSolutionUnique(e, r.value.buffer, [1.0, 0.0, -1.0 / 6.0], b.buffer);
  }

  /** `Q = 2.3 + P + 2.5` with P and Q 1-by-1 and P zero: the written shape
      rule is never consulted for a one-element target, and Q becomes 4.8. */
  method ScalarSumOfOneByOne() returns (r: Result<Store>)
    ensures r.Ok? && |r.value| == 2 && r.value[1].buffer == [4.8]
  {
    var p := FromRows(1, 1, [0.0]);
    var q := FromRows(1, 1, [0.0]);
    var st := [p, q];
    var leaf := Leaf(0);
    var inner := Node(Plus, Const(2.3), leaf);
    var e := Node(Plus, inner, Const(2.5));
    assert Bound(leaf, st) && Size(leaf, st) == 1;
    assert Bound(Const(2.3), st) && Size(Const(2.3), st) == 0;
    assert Bound(Const(2.5), st) && Size(Const(2.5), st) == 0;
    NodeSize(Plus, Const(2.3), leaf, st);
    NodeSize(Plus, inner, Const(2.5), st);
    assert Evaluable(leaf, st, 0) && InBounds(leaf, st, 0) && Eval(leaf, st, 0) == 0.0;
    assert Evaluable(Const(2.3), st, 0) && InBounds(Const(2.3), st, 0) && Eval(Const(2.3), st, 0) == 2.3;
    assert Evaluable(Const(2.5), st, 0) && InBounds(Const(2.5), st, 0) && Eval(Const(2.5), st, 0) == 2.5;
    NodeEval(Plus, Const(2.3), leaf, st, 0);
    NodeEval(Plus, inner, Const(2.5), st, 0);
    assert Size(e, st) == 1 && InBounds(e, st, 0) && Evaluable(e, st, 0) && Eval(e, st, 0) == 4.8;
    assert Facade.Fits(st, 1, e) && Facade.DivisorsNonzeroIn(st, e);
    r := Facade.AssignAsWritten(st, 1, e);
    assert Facade.Forced(st, 1, e)[0] == 4.8;
    assert Facade.Forced(st, 1, e) == [4.8];
  }

  /** `K = (K + K) + (K + (K + K))`: the target is every leaf, yet each
      element is read before it is overwritten, so K becomes 5 K. */
  method SelfSum(k: Container) returns (r: Result<Store>)
    requires Valid(k)
    ensures r == Ok([Scale(k, 5.0)])
  {
    var st := [k];
    var n := |k.buffer|;
    var leaf := Leaf(0);
    var twice := Node(Plus, leaf, leaf);
    var thrice := Node(Plus, leaf, twice);
    var e := Node(Plus, twice, thrice);
    assert Bound(leaf, st) && Size(leaf, st) == n && ShapeAsWritten(leaf, st) == Ok(k.sizes);
    NodeSize(Plus, leaf, leaf, st);
    NodeSize(Plus, leaf, twice, st);
    NodeSize(Plus, twice, thrice, st);
    NodeShapeAsWritten(Plus, leaf, leaf, st, k.sizes);
    NodeShapeAsWritten(Plus, leaf, twice, st, k.sizes);
    NodeShapeAsWritten(Plus, twice, thrice, st, k.sizes);
    forall i | 0 <= i < n
      ensures InBounds(e, st, i) && Evaluable(e, st, i) && Eval(e, st, i) == 5.0 * k.buffer[i]
    {
      var v := k.buffer[i];
      assert InBounds(leaf, st, i) && Evaluable(leaf, st, i) && Eval(leaf, st, i) == v;
      NodeEval(Plus, leaf, leaf, st, i);
      NodeEval(Plus, leaf, twice, st, i);
      NodeEval(Plus, twice, thrice, st, i);
    }
    assert Facade.Fits(st, 0, e) && Facade.DivisorsNonzeroIn(st, e);
    r := Facade.AssignAsWritten(st, 0, e);
    var five := Scale(k, 5.0);
    assert Facade.Forced(st, 0, e) == five.buffer;
    assert r == Ok(st[0 := k.(buffer := five.buffer)]);
    assert k.(buffer := five.buffer) == five;
    assert st[0 := five] == [five];
  }

  /** `C = 5.0 * (A.Multiply(B)) + 2.3 * B + C / C` with the product held in
      P: C's own elements are read as the quotient's operands while C is
      being overwritten, and every element becomes 5 P + 2.3 B + 1. */
  method LinearCombination(p: Container, b: Container, c: Container) returns (r: Result<Store>)
    requires Valid(p) && Valid(b) && Valid(c) && p.sizes == b.sizes == c.sizes
    requires NonzeroCells(c)
    ensures r.Ok? && |r.value| == 3 && r.value[0] == p && r.value[1] == b
    ensures |r.value[2].buffer| == |c.buffer|
    ensures forall k :: 0 <= k < |c.buffer| ==>
      r.value[2].buffer[k] == 5.0 * p.buffer[k] + 2.3 * b.buffer[k] + 1.0
  {
    Facade.SameSizesSameLength(p, c);
    Facade.SameSizesSameLength(b, c);
    var n := |c.buffer|;
    var shape := c.sizes;
    var st := [p, b, c];
    var lp, lb, lc := Leaf(0), Leaf(1), Leaf(2);
    var scaled := Node(Times, Const(5.0), lp);
    var shifted := Node(Times, Const(2.3), lb);
    var sum := Node(Plus, scaled, shifted);
    var ratio := Node(Over, lc, lc);
    var e := Node(Plus, sum, ratio);
    assert Bound(lp, st) && Size(lp, st) == n && ShapeAsWritten(lp, st) == Ok(shape);
    assert Bound(lb, st) && Size(lb, st) == n && ShapeAsWritten(lb, st) == Ok(shape);
    assert Bound(lc, st) && Size(lc, st) == n && ShapeAsWritten(lc, st) == Ok(shape);
    assert Bound(Const(5.0), st) && Size(Const(5.0), st) == 0;
    assert Bound(Const(2.3), st) && Size(Const(2.3), st) == 0;
    NodeSize(Times, Const(5.0), lp, st);
    NodeSize(Times, Const(2.3), lb, st);
    NodeSize(Plus, scaled, shifted, st);
    NodeSize(Over, lc, lc, st);
    NodeSize(Plus, sum, ratio, st);
    ScaledShapeAsWritten(5.0, lp, st);
    ScaledShapeAsWritten(2.3, lb, st);
    NodeShapeAsWritten(Plus, scaled, shifted, st, shape);
    NodeShapeAsWritten(Over, lc, lc, st, shape);
    NodeShapeAsWritten(Plus, sum, ratio, st, shape);
    forall k | 0 <= k < n
      ensures InBounds(e, st, k) && Evaluable(e, st, k)
      ensures Eval(e, st, k) == 5.0 * p.buffer[k] + 2.3 * b.buffer[k] + 1.0
    {
      var x, y, z := p.buffer[k], b.buffer[k], c.buffer[k];
      assert InBounds(lp, st, k) && Evaluable(lp, st, k) && Eval(lp, st, k) == x;
      assert InBounds(lb, st, k) && Evaluable(lb, st, k) && Eval(lb, st, k) == y;
      assert InBounds(lc, st, k) && Evaluable(lc, st, k) && Eval(lc, st, k) == z;
      assert InBounds(Const(5.0), st, k) && Evaluable(Const(5.0), st, k) && Eval(Const(5.0), st, k) == 5.0;
      assert InBounds(Const(2.3), st, k) && Evaluable(Const(2.3), st, k) && Eval(Const(2.3), st, k) == 2.3;
      NodeEval(Times, Const(5.0), lp, st, k);
      NodeEval(Times, Const(2.3), lb, st, k);
      NodeEval(Plus, scaled, shifted, st, k);
      assert z != 0.0 && z / z == 1.0;
      NodeEval(Over, lc, lc, st, k);
      NodeEval(Plus, sum, ratio, st, k);
    }
    assert Facade.Fits(st, 2, e) && Facade.DivisorsNonzeroIn(st, e);
    r := Facade.AssignAsWritten(st, 2, e);
  }
}

=== FILE: solve.dfy ===
/** The triangular solver `span`: the coefficients x with `t · x = b`, by
    forward substitution for a lower-triangular t and back substitution for
    an upper-triangular one. */
module Solve {
  import opened Numerics
  import opened Dense
  import opened Triangular

  /** A grid of at least n rows, each of exactly n columns: the system a
      column count of n poses. */
  predicate SystemShape(m: seq<seq<real>>, n: nat)
  {
    n <= |m| && forall k :: 0 <= k < |m| ==> |m[k]| == n
  }

  /** The partial row product `sum over lo <= j < hi of m[i][j] * x[j]`. */
  function RowDot(m: seq<seq<real>>, x: seq<real>, i: nat, lo: nat, hi: nat): real
    requires i < |m| && lo <= hi <= |m[i]| && hi <= |x|
    decreases hi - lo
  {
    if lo == hi then 0.0 else RowDot(m, x, i, lo, hi - 1) + m[i][hi - 1] * x[hi - 1]
  }

  lemma {:induction false} RowDotSplit(m: seq<seq<real>>, x: seq<real>, i: nat, lo: nat, mid: nat, hi: nat)
    requires i < |m| && lo <= mid <= hi <= |m[i]| && hi <= |x|
    ensures RowDot(m, x, i, lo, hi) == RowDot(m, x, i, lo, mid) + RowDot(m, x, i, mid, hi)
    decreases hi - mid
  {
    if mid < hi {
      RowDotSplit(m, x, i, lo, mid, hi - 1);
    }
  }

  /** Peels the first term off a partial row product. */
  lemma RowDotFront(m: seq<seq<real>>, x: seq<real>, i: nat, lo: nat, hi: nat)
    requires i < |m| && lo < hi <= |m[i]| && hi <= |x|
    ensures RowDot(m, x, i, lo, hi) == RowDot(m, x, i, lo + 1, hi) + m[i][lo] * x[lo]
  {
    RowDotSplit(m, x, i, lo, lo + 1, hi);
  }

  /** Peels the last term off a partial row product. */
  lemma RowDotLast(m: seq<seq<real>>, x: seq<real>, i: nat, lo: nat, hi: nat)
    requires i < |m| && lo < hi <= |m[i]| && hi <= |x|
    ensures RowDot(m, x, i, lo, hi) == RowDot(m, x, i, lo, hi - 1) + m[i][hi - 1] * x[hi - 1]
  {
  }

  /** A partial row product reads only x[lo..hi). */
  lemma {:induction false} RowDotFrame(m: seq<seq<real>>, x: seq<real>, y: seq<real>, i: nat, lo: nat, hi: nat)
    requires i < |m| && lo <= hi <= |m[i]| && hi <= |x| && hi <= |y|
    requires forall k :: lo <= k < hi ==> x[k] == y[k]
    ensures RowDot(m, x, i, lo, hi) == RowDot(m, y, i, lo, hi)
    decreases hi - lo
  {
    if lo < hi {
      RowDotFrame(m, x, y, i, lo, hi - 1);
    }
  }

  /** A stretch of zero coefficients contributes nothing. */
  lemma {:induction false} RowDotZero(m: seq<seq<real>>, x: seq<real>, i: nat, lo: nat, hi: nat)
    requires i < |m| && lo <= hi <= |m[i]| && hi <= |x|
    requires forall j :: lo <= j < hi ==> m[i][j] == 0.0
    ensures RowDot(m, x, i, lo, hi) == 0.0
    decreases hi - lo
  {
    if lo < hi {
      RowDotZero(m, x, i, lo, hi - 1);
    }
  }

  /** `t · x = b` on the first |b| rows, with one unknown per column. */
  predicate Solves(t: Container, x: seq<real>, b: seq<real>)
    requires Viewable(t)
  {
    && |x| == |b| == Cols(t) <= Rows(t)
    && forall i :: 0 <= i < |b| ==> RowDot(Grid(t), x, i, 0, |b|) == b[i]
  }

  /** Every diagonal entry of the leading square block is nonzero. */
  predicate NonzeroDiagonal(t: Container)
    requires Viewable(t) && Cols(t) <= Rows(t)
  {
    forall i: nat :: i < Cols(t) ==> Entry(t, i, i) != 0.0
  }

  /** Dividing by the diagonal coefficient: `d' * (a / d) == a` for the
      same nonzero d. */
  lemma DivideOut(d: real, d': real, a: real, v: real)
    requires d != 0.0 && d' == d && v == a / d
    ensures d' * v == a
  {
  }

  /** A row product completed by its diagonal term: if the rest of the row
      sums to r and the diagonal term d * v makes up c - r, the row sums to
      c. */
  lemma Settle(s: real, r: real, r': real, d: real, w: real, v: real, c: real)
    requires s == r + d * w && r == r' && w == v && d * v == c - r'
    ensures s == c
  {
  }

  /** Two row products that differ only in the diagonal term, with a nonzero
      diagonal coefficient, have equal diagonal unknowns if they are equal. */
  lemma CancelDiagonal(d: real, u: real, v: real, rx: real, ry: real, sx: real, sy: real)
    requires d != 0.0 && sx == rx + d * u && sy == ry + d * v && rx == ry && sx == sy
    ensures u == v
  {
    assert d * (u - v) == 0.0;
  }

  /** The inner loop of the forward branch: subtracts the terms of row i left
      of the diagonal, in column order, from y[i]. */
  method SubtractLeft(t: Container, y: seq<real>, i: nat) returns (z: seq<real>)
    requires Viewable(t) && |y| == Cols(t) <= Rows(t) && i < |y|
    ensures |z| == |y| && z[i] == y[i] - RowDot(Grid(t), y, i, 0, i)
    ensures forall k :: 0 <= k < |y| && k != i ==> z[k] == y[k]
  {
    ghost var m := Grid(t);
    z := y;
    var j := 0;
    while j < i
      invariant 0 <= j <= i && |z| == |y|
      invariant forall k :: 0 <= k < |y| && k != i ==> z[k] == y[k]
      invariant z[i] == y[i] - RowDot(m, y, i, 0, j)
    {
      assert Entry(t, i, j) == m[i][j] && z[j] == y[j];
      RowDotLast(m, y, i, 0, j + 1);
      z := z[i := z[i] - Entry(t, i, j) * z[j]];
      j := j + 1;
    }
  }

  /** The inner loop of the back branch: subtracts the terms of row i right
      of the diagonal, from the last column down, from y[i]. */
  method SubtractRight(t: Container, y: seq<real>, i: nat) returns (z: seq<real>)
    requires Viewable(t) && |y| == Cols(t) <= Rows(t) && i < |y|
    ensures |z| == |y| && z[i] == y[i] - RowDot(Grid(t), y, i, i + 1, |y|)
    ensures forall k :: 0 <= k < |y| && k != i ==> z[k] == y[k]
  {
    ghost var m := Grid(t);
    z := y;
    var j := |y|;
    while j > i + 1
      invariant i + 1 <= j <= |y| == |z|
      invariant forall k :: 0 <= k < |y| && k != i ==> z[k] == y[k]
      invariant z[i] == y[i] - RowDot(m, y, i, j, |y|)
    {
      j := j - 1;
      assert Entry(t, i, j) == m[i][j] && z[j] == y[j];
      RowDotFront(m, y, i, j, |y|);
      z := z[i := z[i] - Entry(t, i, j) * z[j]];
    }
  }

  /** Forward substitution has fixed the first i unknowns: each row before i
      is satisfied by the columns up to its diagonal, and the rest of y is
      still b. */
  predicate ForwardSolved(m: seq<seq<real>>, y: seq<real>, b: seq<real>, i: nat)
    requires SystemShape(m, |b|) && |y| == |b| && i <= |b|
  {
    && (forall k :: i <= k < |b| ==> y[k] == b[k])
    && (forall k :: 0 <= k < i ==> RowDot(m, y, k, 0, k + 1) == b[k])
  }

  /** Back substitution has fixed the unknowns from i on: each row from i is
      satisfied by the columns from its diagonal, and the rest of y is still
      b. */
  predicate BackSolved(m: seq<seq<real>>, y: seq<real>, b: seq<real>, i: nat)
    requires SystemShape(m, |b|) && |y| == |b| && i <= |b|
  {
    && (forall k :: 0 <= k < i ==> y[k] == b[k])
    && (forall k :: i <= k < |b| ==> RowDot(m, y, k, k, |b|) == b[k])
  }

  /** Row i up to its diagonal, once unknown i is set to a value v whose
      diagonal term makes up the rest. */
  lemma ForwardRow(m: seq<seq<real>>, y: seq<real>, i: nat, v: real, c: real)
    requires i < |m| && i < |m[i]| && i < |y|
    requires m[i][i] * v == c - RowDot(m, y, i, 0, i)
    ensures RowDot(m, y[i := v], i, 0, i + 1) == c
  {
    var y' := y[i := v];
    RowDotLast(m, y', i, 0, i + 1);
    RowDotFrame(m, y, y', i, 0, i);
    Settle(RowDot(m, y', i, 0, i + 1), RowDot(m, y', i, 0, i), RowDot(m, y, i, 0, i), m[i][i], y'[i], v, c);
  }

  /** Row i from its diagonal, once unknown i is set to a value v whose
      diagonal term makes up the rest. */
  lemma BackRow(m: seq<seq<real>>, y: seq<real>, i: nat, n: nat, v: real, c: real)
    requires i < |m| && i < n <= |m[i]| && n == |y|
    requires m[i][i] * v == c - RowDot(m, y, i, i + 1, n)
    ensures RowDot(m, y[i := v], i, i, n) == c
  {
    var y' := y[i := v];
    RowDotFront(m, y', i, i, n);
    RowDotFrame(m, y, y', i, i + 1, n);
    Settle(RowDot(m, y', i, i, n), RowDot(m, y', i, i + 1, n), RowDot(m, y, i, i + 1, n), m[i][i], y'[i], v, c);
  }

  /** Setting unknown i leaves a partial row product that skips column i
      unchanged. */
  lemma UnchangedRow(m: seq<seq<real>>, y: seq<real>, i: nat, v: real, k: nat, lo: nat, hi: nat)
    requires k < |m| && lo <= hi <= |m[k]| && hi <= |y| && i < |y| && (i < lo || hi <= i)
    ensures RowDot(m, y[i := v], k, lo, hi) == RowDot(m, y, k, lo, hi)
  {
    RowDotFrame(m, y[i := v], y, k, lo, hi);
  }

  /** Fixing unknown i to a value v that satisfies row i extends a partial
      forward solution by one row. */
  lemma ForwardStep(m: seq<seq<real>>, y: seq<real>, b: seq<real>, i: nat, v: real)
    requires SystemShape(m, |b|) && |y| == |b| && i < |b|
    requires ForwardSolved(m, y, b, i) && RowDot(m, y[i := v], i, 0, i + 1) == b[i]
    ensures ForwardSolved(m, y[i := v], b, i + 1)
  {
    forall k | 0 <= k < i
      ensures RowDot(m, y[i := v], k, 0, k + 1) == b[k]
    {
      UnchangedRow(m, y, i, v, k, 0, k + 1);
    }
  }

  /** Fixing unknown i to a value v that satisfies row i extends a partial
      back solution by one row. */
  lemma BackStep(m: seq<seq<real>>, y: seq<real>, b: seq<real>, i: nat, v: real)
    requires SystemShape(m, |b|) && |y| == |b| && i < |b|
    requires BackSolved(m, y, b, i + 1) && RowDot(m, y[i := v], i, i, |b|) == b[i]
    ensures BackSolved(m, y[i := v], b, i)
  {
    BackRowsKept(m, y, b, i, v);
  }

  /** Setting unknown i keeps every later row of a partial back solution
      satisfied. */
  lemma BackRowsKept(m: seq<seq<real>>, y: seq<real>, b: seq<real>, i: nat, v: real)
    requires SystemShape(m, |b|) && |y| == |b| && i < |b|
    requires forall k :: i < k < |b| ==> RowDot(m, y, k, k, |b|) == b[k]
    ensures forall k :: i < k < |b| ==> RowDot(m, y[i := v], k, k, |b|) == b[k]
  {
    forall k | i < k < |b|
      ensures RowDot(m, y[i := v], k, k, |b|) == b[k]
    {
      UnchangedRow(m, y, i, v, k, k, |b|);
    }
  }

  /** The lower-triangular branch of `span`: for each i in order, subtract
      the already solved terms from b[i], then divide by the diagonal. */
  method ForwardSubstitution(t: Container, b: seq<real>) returns (y: seq<real>)
    requires Viewable(t) && Cols(t) == |b| <= Rows(t) && NonzeroDiagonal(t) && LowerTriangular(t)
    ensures Solves(t, y, b)
  {
    ghost var m := Grid(t);
    y := b;
    var i := 0;
    while i < |y|
      invariant 0 <= i <= |b| == |y|
      invariant ForwardSolved(m, y, b, i)
    {
      var z := SubtractLeft(t, y, i);
      var v := z[i] / Entry(t, i, i);
      DivideOut(Entry(t, i, i), m[i][i], z[i], v);
      ForwardRow(m, y, i, v, b[i]);
      ForwardStep(m, y, b, i, v);
      assert z[i := v] == y[i := v];
      y := z[i := v];
      i := i + 1;
    }
    forall k | 0 <= k < |b|
      ensures RowDot(m, y, k, 0, |b|) == b[k]
    {
      RowDotSplit(m, y, k, 0, k + 1, |b|);
      RowDotZero(m, y, k, k + 1, |b|);
    }
  }

  /** The upper-triangular branch of `span` with a descending loop that
      terminates: for each i from the last down to the first, subtract the
      already solved terms to its right, then divide by the diagonal. */
  method BackSubstitution(t: Container, b: seq<real>) returns (y: seq<real>)
    requires Viewable(t) && Cols(t) == |b| <= Rows(t) && NonzeroDiagonal(t) && UpperTriangular(t)
    ensures Solves(t, y, b)
  {
    ghost var m := Grid(t);
    y := b;
    var i := |y|;
    while i > 0
      invariant 0 <= i <= |b| == |y|
      invariant BackSolved(m, y, b, i)
    {
      i := i - 1;
      var z := SubtractRight(t, y, i);
      var v := z[i] / Entry(t, i, i);
      DivideOut(Entry(t, i, i), m[i][i], z[i], v);
      BackRow(m, y, i, |b|, v, b[i]);
      BackStep(m, y, b, i, v);
      assert z[i := v] == y[i := v];
      y := z[i := v];
    }
    forall k | 0 <= k < |b|
      ensures RowDot(m, y, k, 0, |b|) == b[k]
    {
      RowDotSplit(m, y, k, 0, k, |b|);
      RowDotZero(m, y, k, 0, k);
    }
  }

  /** A row with nothing right of the diagonal: the terms before it plus the
      diagonal term. */
  lemma LowerRow(m: seq<seq<real>>, x: seq<real>, k: nat, n: nat)
    requires k < n && k < |m| && |m[k]| == n && |x| == n
    requires forall j :: k < j < n ==> m[k][j] == 0.0
    ensures RowDot(m, x, k, 0, n) == RowDot(m, x, k, 0, k) + m[k][k] * x[k]
  {
    RowDotSplit(m, x, k, 0, k + 1, n);
    RowDotZero(m, x, k, k + 1, n);
    RowDotLast(m, x, k, 0, k + 1);
  }

  /** A row with nothing left of the diagonal: the terms after it plus the
      diagonal term. */
  lemma UpperRow(m: seq<seq<real>>, x: seq<real>, k: nat, n: nat)
    requires k < n && k < |m| && |m[k]| == n && |x| == n
    requires forall j :: 0 <= j < k ==> m[k][j] == 0.0
    ensures RowDot(m, x, k, 0, n) == RowDot(m, x, k, k + 1, n) + m[k][k] * x[k]
  {
    RowDotSplit(m, x, k, 0, k, n);
    RowDotZero(m, x, k, 0, k);
    RowDotFront(m, x, k, k, n);
  }

  /** In a row with nothing right of the diagonal, agreement on the earlier
      unknowns and equal row products force agreement on unknown k. */
  lemma LowerRowAgrees(m: seq<seq<real>>, x: seq<real>, y: seq<real>, k: nat, n: nat)
    requires k < n && k < |m| && |m[k]| == n && |x| == |y| == n && m[k][k] != 0.0
    requires forall j :: k < j < n ==> m[k][j] == 0.0
    requires forall p :: 0 <= p < k ==> x[p] == y[p]
    requires RowDot(m, x, k, 0, n) == RowDot(m, y, k, 0, n)
    ensures x[k] == y[k]
  {
    LowerRow(m, x, k, n);
    LowerRow(m, y, k, n);
    RowDotFrame(m, x, y, k, 0, k);
    CancelDiagonal(m[k][k], x[k], y[k], RowDot(m, x, k, 0, k), RowDot(m, y, k, 0, k),
      RowDot(m, x, k, 0, n), RowDot(m, y, k, 0, n));
  }

  /** In a row with nothing left of the diagonal, agreement on the later
      unknowns and equal row products force agreement on unknown k. */
  lemma UpperRowAgrees(m: seq<seq<real>>, x: seq<real>, y: seq<real>, k: nat, n: nat)
    requires k < n && k < |m| && |m[k]| == n && |x| == |y| == n && m[k][k] != 0.0
    requires forall j :: 0 <= j < k ==> m[k][j] == 0.0
    requires forall p :: k < p < n ==> x[p] == y[p]
    requires RowDot(m, x, k, 0, n) == RowDot(m, y, k, 0, n)
    ensures x[k] == y[k]
  {
    UpperRow(m, x, k, n);
    UpperRow(m, y, k, n);
    RowDotFrame(m, x, y, k, k + 1, n);
    CancelDiagonal(m[k][k], x[k], y[k], RowDot(m, x, k, k + 1, n), RowDot(m, y, k, k + 1, n),
      RowDot(m, x, k, 0, n), RowDot(m, y, k, 0, n));
  }

  /** A lower-triangular system with nonzero diagonal has exactly one
      solution. */
  lemma LowerSolutionUnique(t: Container, x: seq<real>, y: seq<real>, b: seq<real>)
    requires Viewable(t) && Cols(t) <= Rows(t) && NonzeroDiagonal(t) && LowerTriangular(t)
    requires Solves(t, x, b) && Solves(t, y, b)
    ensures x == y
  {
    var m := Grid(t);
    var n := |b|;
    var k := 0;
    while k < n
      invariant 0 <= k <= n
      invariant forall p :: 0 <= p < k ==> x[p] == y[p]
    {
      assert m[k][k] == Entry(t, k, k);
      LowerRowAgrees(m, x, y, k, n);
      k := k + 1;
    }
  }

  /** An upper-triangular system with nonzero diagonal has exactly one
      solution. */
  lemma UpperSolutionUnique(t: Container, x: seq<real>, y: seq<real>, b: seq<real>)
    requires Viewable(t) && Cols(t) <= Rows(t) && NonzeroDiagonal(t) && UpperTriangular(t)
    requires Solves(t, x, b) && Solves(t, y, b)
    ensures x == y
  {
    var m := Grid(t);
    var n := |b|;
    var k := n;
    while k > 0
      invariant 0 <= k <= n
      invariant forall p :: k <= p < n ==> x[p] == y[p]
    {
      k := k - 1;
      assert m[k][k] == Entry(t, k, k);
      UpperRowAgrees(m, x, y, k, n);
    }
  }

  /** The written upper branch's loop test `i > -1`: the -1 converts to the
      largest size_t, so the test fails for every size_t value of i. */
  function AsWrittenUpperGuard(i: nat): bool
  {
    i > SizeModulus - 1
  }

  /** `span` as written. A size mismatch between b and the columns trips the
      assertion; a lower-triangular t is solved by forward substitution; an
      upper-triangular (but not lower) t gets b back unchanged, because the
      descending loop's test never holds; any other t reaches the final
      assertion. */
  method SpanAsWritten(t: Container, b: Container) returns (r: Result<Container>)
    requires Viewable(t)
    requires |b.buffer| == Cols(t) && LowerTriangular(t) ==> Cols(t) <= Rows(t) && NonzeroDiagonal(t)
    requires |b.buffer| == Cols(t) && !LowerTriangular(t) ==> Rows(t) <= Cols(t) + 1
    ensures r == Err(ShapeMismatch) <==> |b.buffer| != Cols(t)
    ensures |b.buffer| == Cols(t) && LowerTriangular(t) ==>
      && r.Ok? && Solves(t, r.value.buffer, b.buffer)
      && r.value.sizes == b.sizes && r.value.strides == b.strides && r.value.transposed == b.transposed
    ensures |b.buffer| == Cols(t) && !LowerTriangular(t) && UpperTriangular(t) ==> r == Ok(b)
    ensures |b.buffer| == Cols(t) && !LowerTriangular(t) && !UpperTriangular(t) ==> r == Err(NotTriangular)
  {
    if |b.buffer| != Cols(t) {
      return Err(ShapeMismatch);
    }
    var lower := IsLowerTriangular(t);
    if lower {
      var y := ForwardSubstitution(t, b.buffer);
      return Ok(b.(buffer := y));
    }
    var upper := IsUpperTriangular(t);
    if upper {
      var i := (|b.buffer| - 1) % SizeModulus;
      assert !AsWrittenUpperGuard(i);
      return Ok(b);
    }
    return Err(NotTriangular);
  }

  /** The written upper branch does not solve the system: for
      t = [[1, 1], [0, 1]] and b = [1, 1] it returns b, but t · b = [2, 1]. */
  lemma UpperBranchCounterexample()
    ensures var t := FromRows(2, 2, [1.0, 1.0, 0.0, 1.0]);
      && NonzeroDiagonal(t) && UpperTriangular(t) && !LowerTriangular(t)
      && !Solves(t, [1.0, 1.0], [1.0, 1.0])
  {
    var t := FromRows(2, 2, [1.0, 1.0, 0.0, 1.0]);
    assert Offset(t, 0, 0) == 0 && Offset(t, 0, 1) == 1 && Offset(t, 1, 0) == 2 && Offset(t, 1, 1) == 3;
    assert Entry(t, 0, 1) == 1.0;
    assert Entry(t, 1, 0) == 0.0;
    var m := Grid(t);
    RowDotLast(m, [1.0, 1.0], 0, 0, 2);
    RowDotLast(m, [1.0, 1.0], 0, 0, 1);
    assert RowDot(m, [1.0, 1.0], 0, 0, 2) == 2.0;
  }

  /** The forward branch of the written `span` runs one step per column, so
      on a wide lower-triangular t it reads below the last row: for
      t = [[1, 0]] and b = [1, 1], step 1 reads t(1, 0) at flat position 2 of
      a 2-element buffer. */
  lemma ForwardBranchEscapesWide()
    ensures var t := FromRows(1, 2, [1.0, 0.0]);
      && Viewable(t) && LowerTriangular(t) && Rows(t) < Cols(t)
      && Offset(t, 1, 0) == 2 && |t.buffer| == 2
  {
    var t := FromRows(1, 2, [1.0, 0.0]);
    assert Offset(t, 0, 1) == 1;
    assert Entry(t, 0, 1) == 0.0;
  }

  /** `span` with the upper branch corrected to a terminating back
      substitution, the upper scan bounded by the columns, and a wide
      triangular t (more unknowns than equations, which the written forward
      branch would read past) rejected as a shape mismatch: b's length must
      match the columns, t must be triangular and not wide, and the result
      solves the system. */
  method Span(t: Container, b: Container) returns (r: Result<Container>)
    requires Viewable(t)
    requires |b.buffer| == Cols(t) && Cols(t) <= Rows(t) && (LowerTriangular(t) || UpperTriangular(t)) ==>
      NonzeroDiagonal(t)
    ensures r.Err? <==>
      |b.buffer| != Cols(t) || Rows(t) < Cols(t) || (!LowerTriangular(t) && !UpperTriangular(t))
    ensures r.Err? ==>
      r.error == (if |b.buffer| != Cols(t) || (Rows(t) < Cols(t) && (LowerTriangular(t) || UpperTriangular(t)))
                  then ShapeMismatch else NotTriangular)
    ensures r.Ok? ==>
      && Solves(t, r.value.buffer, b.buffer)
      && r.value.sizes == b.sizes && r.value.strides == b.strides && r.value.transposed == b.transposed
  {
    if |b.buffer| != Cols(t) {
      return Err(ShapeMismatch);
    }
    var lower := IsLowerTriangular(t);
    var upper := false;
    if !lower {
      upper := IsUpperTriangularBounded(t);
    }
    if !lower && !upper {
      return Err(NotTriangular);
    }
    if Rows(t) < Cols(t) {
      return Err(ShapeMismatch);
    }
    if lower {
      var y := ForwardSubstitution(t, b.buffer);
      return Ok(b.(buffer := y));
    }
    var y := BackSubstitution(t, b.buffer);
    return Ok(b.(buffer := y));
  }
}

=== FILE: transpose.dfy ===
/** The data-moving ("cache-oblivious") strong transpose: a recursive
    bisection of an inclusive row/column index range along its longer side,
    with a naive copy once either side is at most three long. */
module CacheOblivious {
  import opened Numerics
  import opened Dense

  /** An inclusive range of source rows and columns. */
  datatype Block = Block(firstRow: nat, lastRow: nat, firstCol: nat, lastCol: nat)

  predicate Proper(b: Block)
  {
    b.firstRow <= b.lastRow && b.firstCol <= b.lastCol
  }

  /** Number of rows in the block (the source calls it the width). */
  function RowSpan(b: Block): nat
    requires Proper(b)
  {
    b.lastRow - b.firstRow + 1
  }

  /** Number of columns in the block (the source calls it the height). */
  function ColSpan(b: Block): nat
    requires Proper(b)
  {
    b.lastCol - b.firstCol + 1
  }

  predicate InBlock(b: Block, i: nat, j: nat)
  {
    b.firstRow <= i <= b.lastRow && b.firstCol <= j <= b.lastCol
  }

  /** Small blocks are copied directly: the threshold is three along either side. */
  predicate IsBaseCase(b: Block)
    requires Proper(b)
  {
    RowSpan(b) <= 3 || ColSpan(b) <= 3
  }

  // ---------------------------------------------------------------------------
  // The split as written
  // ---------------------------------------------------------------------------

  /** The side length `last - first + 1` in unsigned arithmetic: it wraps
      when `last < first - 1`. */
  function WrappedSpan(first: nat, last: nat): nat
  {
    (last - first + 1) % SizeModulus
  }

  lemma SmallModulo(x: nat)
    requires x < SizeModulus
    ensures x % SizeModulus == x
  {
  }

  predicate SourceIsBaseCase(b: Block)
  {
    WrappedSpan(b.firstRow, b.lastRow) <= 3 || WrappedSpan(b.firstCol, b.lastCol) <= 3
  }

  /** The source's split: half of the side length is used as an absolute
      last index for the first half. */
  function SourceSplit(b: Block): (halves: (Block, Block))
    ensures halves.0.firstRow == b.firstRow && halves.0.firstCol == b.firstCol
  {
    var width := WrappedSpan(b.firstRow, b.lastRow);
    var hight := WrappedSpan(b.firstCol, b.lastCol);
    if width >= hight then
      (b.(lastRow := width / 2), b.(firstRow := width / 2 + 1))
    else
      (b.(lastCol := hight / 2), b.(firstCol := hight / 2 + 1))
  }

  /** On a 9 x 9 matrix, the smallest square one the written split gets
      wrong, the recursion reaches rows 5..8 x columns 5..8, splits it into
      rows 5..2 and 3..8, and the unsigned width of rows 5..2 wraps to
      2^64 - 2, so that block is split again instead of copied, into a block
      whose last row lies far beyond row 8. */
  lemma SourceSplitEscapes9x9()
    ensures var whole := Block(0, 8, 0, 8);
      !SourceIsBaseCase(whole) && SourceSplit(whole).1 == Block(5, 8, 0, 8)
    ensures !SourceIsBaseCase(Block(5, 8, 0, 8)) && SourceSplit(Block(5, 8, 0, 8)).1 == Block(5, 8, 5, 8)
    ensures !SourceIsBaseCase(Block(5, 8, 5, 8)) && SourceSplit(Block(5, 8, 5, 8)).0 == Block(5, 2, 5, 8)
    ensures WrappedSpan(5, 2) == SizeModulus - 2 && !SourceIsBaseCase(Block(5, 2, 5, 8))
    ensures SourceSplit(Block(5, 2, 5, 8)).0.lastRow >= 9
    ensures !(InBlock(SourceSplit(Block(5, 8, 5, 8)).1, 3, 5) ==> InBlock(Block(5, 8, 5, 8), 3, 5))
  {
  }

  // ---------------------------------------------------------------------------
  // The corrected split
  // ---------------------------------------------------------------------------

  /** Bisection with an absolute midpoint, `first + span / 2`, along the
      longer side (rows on a tie). */
  function Split(b: Block): (halves: (Block, Block))
    requires Proper(b) && !IsBaseCase(b)
    ensures Proper(halves.0) && Proper(halves.1)
    ensures RowSpan(halves.0) + ColSpan(halves.0) < RowSpan(b) + ColSpan(b)
    ensures RowSpan(halves.1) + ColSpan(halves.1) < RowSpan(b) + ColSpan(b)
    ensures forall i: nat, j: nat :: InBlock(b, i, j) <==> InBlock(halves.0, i, j) || InBlock(halves.1, i, j)
    ensures forall i: nat, j: nat :: !(InBlock(halves.0, i, j) && InBlock(halves.1, i, j))
  {
    if RowSpan(b) >= ColSpan(b) then
      var mid := b.firstRow + RowSpan(b) / 2;
      (b.(lastRow := mid), b.(firstRow := mid + 1))
    else
      var mid := b.firstCol + ColSpan(b) / 2;
      (b.(lastCol := mid), b.(firstCol := mid + 1))
  }

  /** When the range starts at index 0 (the top-level call), the written
      split and the corrected one coincide. */
  lemma SplitAgreesAtOrigin(b: Block)
    requires Proper(b) && !IsBaseCase(b) && b.firstRow == 0 && b.firstCol == 0
    requires b.lastRow + 1 < SizeModulus && b.lastCol + 1 < SizeModulus
    ensures !SourceIsBaseCase(b) && SourceSplit(b) == Split(b)
  {
    assert WrappedSpan(0, b.lastRow) == RowSpan(b) by {
      SmallModulo(b.lastRow + 1);
    }
    assert WrappedSpan(0, b.lastCol) == ColSpan(b) by {
      SmallModulo(b.lastCol + 1);
    }
  }

  // ---------------------------------------------------------------------------
  // The recursion over containers
  // ---------------------------------------------------------------------------

  /** The block lies inside the source, and the target has the transposed
      shape of the source and is read without the weak-transpose flag. */
  predicate Fits(src: Container, dst: Container, b: Block)
  {
    && Viewable(src) && Viewable(dst) && !dst.transposed
    && Rows(dst) == Cols(src) && Cols(dst) == Rows(src)
    && Proper(b) && b.lastRow < Rows(src) && b.lastCol < Cols(src)
  }

  /** r is dst with `r(j, i) = src(i, j)` for every (i, j) of the block and
      every other cell of dst untouched. */
  predicate TransposedInto(src: Container, dst: Container, r: Container, b: Block)
    requires Fits(src, dst, b)
  {
    && Viewable(r) && r.sizes == dst.sizes && r.strides == dst.strides && !r.transposed
    && forall x: nat, y: nat :: x < Rows(dst) && y < Cols(dst) ==>
         Entry(r, x, y) == if InBlock(b, y, x) then Entry(src, y, x) else Entry(dst, x, y)
  }

  /** `minortranspose`: the naive double loop over a block. */
  method MinorTranspose(src: Container, dst: Container, b: Block) returns (r: Container)
    requires Fits(src, dst, b)
    ensures TransposedInto(src, dst, r, b)
  {
    r := dst;
    var i := b.firstRow;
    while i < b.lastRow + 1
      invariant b.firstRow <= i <= b.lastRow + 1
      invariant Viewable(r) && r.sizes == dst.sizes && r.strides == dst.strides && !r.transposed
      invariant forall x: nat, y: nat :: x < Rows(dst) && y < Cols(dst) ==>
        Entry(r, x, y) == if b.firstRow <= y < i && b.firstCol <= x <= b.lastCol
                          then Entry(src, y, x) else Entry(dst, x, y)
    {
      var j := b.firstCol;
      while j < b.lastCol + 1
        invariant b.firstCol <= j <= b.lastCol + 1
        invariant Viewable(r) && r.sizes == dst.sizes && r.strides == dst.strides && !r.transposed
        invariant forall x: nat, y: nat :: x < Rows(dst) && y < Cols(dst) ==>
          Entry(r, x, y) == if (b.firstRow <= y < i && b.firstCol <= x <= b.lastCol)
                               || (y == i && b.firstCol <= x < j)
                            then Entry(src, y, x) else Entry(dst, x, y)
      {
        r := SetEntry(r, j, i, Entry(src, i, j));
        j := j + 1;
      }
      i := i + 1;
    }
  }

  /** `transposeRecursion` with the corrected split. */
  method TransposeRecursion(src: Container, dst: Container, b: Block) returns (r: Container)
    requires Fits(src, dst, b)
    ensures TransposedInto(src, dst, r, b)
    decreases RowSpan(b) + ColSpan(b)
  {
    if IsBaseCase(b) {
      r := MinorTranspose(src, dst, b);
    } else {
      var halves := Split(b);
      var mid := TransposeRecursion(src, dst, halves.0);
      r := TransposeRecursion(src, mid, halves.1);
    }
  }

  /** A non-transposed container is determined by its entries. */
  lemma EntriesDetermineBuffer(a: Container, b: Container)
    requires Viewable(a) && Viewable(b) && !a.transposed && !b.transposed && a.sizes == b.sizes
    requires Rows(a) > 0 && Cols(a) > 0
    requires forall i: nat, j: nat :: i < Rows(a) && j < Cols(a) ==> Entry(a, i, j) == Entry(b, i, j)
    ensures a.buffer == b.buffer
  {
    Rank2Layout(a);
    Rank2Layout(b);
    forall k | 0 <= k < |a.buffer|
      ensures a.buffer[k] == b.buffer[k]
    {
      DivMod(k, Cols(a), Rows(a));
      assert Offset(a, k / Cols(a), k % Cols(a)) == k;
      assert Entry(a, k / Cols(a), k % Cols(a)) == Entry(b, k / Cols(a), k % Cols(a));
    }
  }

  /** `strongTranspose` on a square container: the temporary is built with
      the container's own sizes, filled by the recursion over the whole
      range, and swapped in with the flag cleared. Afterwards `(i, j)` holds
      what the old logical `(j, i)` held, which is also what the weak
      transpose shows at `(i, j)`. On a 0-by-0 container building the
      temporary fails the constructor's zero-size assertion. */
  method StrongTranspose(c: Container) returns (r: Result<Container>)
    requires Viewable(c) && Rows(c) == Cols(c)
    ensures r.Err? <==> Rows(c) == 0
    ensures r.Err? ==> r.error == ZeroExtent
    ensures r.Ok? ==> Viewable(r.value) && r.value.sizes == c.sizes && r.value.strides == c.strides && !r.value.transposed
    ensures r.Ok? ==> forall i: nat, j: nat :: i < Rows(c) && j < Cols(c) ==> Entry(r.value, i, j) == Entry(c, j, i)
    ensures r.Ok? ==> forall i: nat, j: nat :: i < Rows(c) && j < Cols(c) ==>
      Readable(Transpose(c), [i, j]) && Entry(r.value, i, j) == Get(Transpose(c), [i, j])
  {
    var n := Rows(c);
    var temp := New(2, [Rows(c), Cols(c)]);
    if temp.Err? {
      return Err(temp.error);
    }
    assert AllPositive([n, n]);
    var t := TransposeRecursion(c, temp.value, Block(0, n - 1, 0, n - 1));
    t := t.(transposed := false);
    forall i: nat, j: nat | i < n && j < n
      ensures Readable(Transpose(c), [i, j]) && Entry(t, i, j) == Get(Transpose(c), [i, j])
    {
      EntryIsGet(c, j, i);
      TransposeView(c, i, j);
    }
    return Ok(t);
  }

  /** Two strong transposes of a square, unflagged container restore it;
      on a 0-by-0 container the first one already fails. */
  method StrongTransposeTwice(c: Container) returns (r: Result<Container>)
    requires Viewable(c) && Rows(c) == Cols(c) && !c.transposed
    ensures r.Err? <==> Rows(c) == 0
    ensures r.Ok? ==> r.value == c
  {
    var once := StrongTranspose(c);
    if once.Err? {
      return once;
    }
    r := StrongTranspose(once.value);
    if r.Ok? {
      EntriesDetermineBuffer(r.value, c);
    }
  }

  // ---------------------------------------------------------------------------
  // Non-square input
  // ---------------------------------------------------------------------------

  /** The written code builds the temporary with the source's own
      `rows x cols` sizes and stores source cell (i, j) at `temp(j, i)`. For a
      non-square source that temporary cannot hold the transpose: with more
      columns than rows the last source cell is stored past its buffer, and
      with more rows than columns (and at least two columns) source cells
      (cols, 0) and (0, 1) are stored in the same place. */
  lemma AsWrittenTempMisplaces(rows: nat, cols: nat)
    requires rows >= 1 && cols >= 1
    ensures New(2, [rows, cols]).Ok?
    ensures var temp := New(2, [rows, cols]).value;
      && Rows(temp) == rows && Cols(temp) == cols && !temp.transposed
      && (cols > rows ==> Offset(temp, cols - 1, rows - 1) >= |temp.buffer|)
      && (rows > cols >= 2 ==> Offset(temp, 0, cols) == Offset(temp, 1, 0))
  {
    assert AllPositive([rows, cols]);
    var temp := New(2, [rows, cols]).value;
    assert |temp.buffer| == rows * cols by {
      Rank2Layout(temp);
    }
    if cols > rows {
      MulMonotone(rows, cols - 1, cols);
      assert (cols - 1) * cols + (rows - 1) >= rows * cols;
    }
  }

  /** The corrected strong transpose for any rows x cols container: the
      temporary is built `cols x rows`, so the container's sizes swap. */
  method StrongTransposeRect(c: Container) returns (r: Container)
    requires Viewable(c) && Rows(c) >= 1 && Cols(c) >= 1
    ensures Viewable(r) && r.sizes == [Cols(c), Rows(c)] && !r.transposed
    ensures forall i: nat, j: nat :: i < Cols(c) && j < Rows(c) ==> Entry(r, i, j) == Entry(c, j, i)
  {
    var temp := New(2, [Cols(c), Rows(c)]);
    assert AllPositive([Cols(c), Rows(c)]);
    r := TransposeRecursion(c, temp.value, Block(0, Rows(c) - 1, 0, Cols(c) - 1));
  }
}

=== FILE: triangular.dfy ===
/** Lower/upper triangular classification of a rank-2 container: a scan of
    the entries strictly above (resp. below) the diagonal, through the
    container's `(i, j)` access. */
module Triangular {
  import opened Dense

  /** Every entry strictly above the diagonal is exactly zero. */
  predicate LowerTriangular(c: Container)
    requires Viewable(c)
  {
    forall i: nat, j: nat :: i < Rows(c) && i < j < Cols(c) ==> Entry(c, i, j) == 0.0
  }

  /** Every entry strictly below the diagonal is exactly zero. */
  predicate UpperTriangular(c: Container)
    requires Viewable(c)
  {
    forall i: nat, j: nat :: j < i < Rows(c) && j < Cols(c) ==> Entry(c, i, j) == 0.0
  }

  // ---------------------------------------------------------------------------
  // The cells the scans read
  // ---------------------------------------------------------------------------

  /** Where the lower scan's reads stay inside the buffer: any unflagged
      container, and a flagged one with at least as many rows as columns
      (the scan only reads columns j > i, so only the leading square block). */
  predicate LowerScanFits(c: Container)
  {
    Valid(c) && |c.sizes| == 2 && (c.transposed ==> Cols(c) <= Rows(c))
  }

  lemma LowerScanInBuffer(c: Container, i: nat, j: nat)
    requires LowerScanFits(c) && i < Rows(c) && i < j < Cols(c)
    ensures Offset(c, i, j) < |c.buffer|
  {
    Rank2Layout(c);
    if c.transposed {
      MixedRadixBound(j, i, Cols(c), Cols(c));
      MulMonotone(Cols(c), Rows(c), Cols(c));
    } else {
      MixedRadixBound(i, j, Rows(c), Cols(c));
    }
  }

  /** Every cell the lower scan reads is zero. */
  predicate LowerCellsZero(c: Container)
    requires LowerScanFits(c)
  {
    forall i: nat, j: nat :: i < Rows(c) && i < j < Cols(c) ==>
      (LowerScanInBuffer(c, i, j); At(c, i, j) == 0.0)
  }

  /** A cell (i, j) with j < i, below the reported columns, lies inside the
      buffer for every flag and shape. */
  lemma BelowInBuffer(c: Container, i: nat, j: nat)
    requires Valid(c) && |c.sizes| == 2 && j < i < Rows(c) && j < Cols(c)
    ensures Offset(c, i, j) < |c.buffer|
  {
    Rank2Layout(c);
    var n, m := Rows(c), Cols(c);
    if !c.transposed {
      MixedRadixBound(i, j, n, m);
    } else if i < m {
      MixedRadixBound(j, i, n, m);
    } else {
      WideReadBound(j, i, n, m);
    }
  }

  /** Every cell strictly below the diagonal and below the reported columns
      is zero. */
  predicate BelowCellsZero(c: Container)
    requires Valid(c) && |c.sizes| == 2
  {
    forall i: nat, j: nat :: j < i < Rows(c) && j < Cols(c) ==>
      (BelowInBuffer(c, i, j); At(c, i, j) == 0.0)
  }

  /** On a container whose reported extents are safe the cells read are the
      entries, so the cell conditions are the triangularity predicates. */
  lemma CellsAreEntries(c: Container)
    requires Viewable(c)
    ensures LowerScanFits(c) && (LowerCellsZero(c) <==> LowerTriangular(c))
    ensures BelowCellsZero(c) <==> UpperTriangular(c)
  {
    forall i: nat, j: nat | i < Rows(c) && i < j < Cols(c)
      ensures Entry(c, i, j) == (LowerScanInBuffer(c, i, j); At(c, i, j))
    {
    }
    forall i: nat, j: nat | j < i < Rows(c) && j < Cols(c)
      ensures Entry(c, i, j) == (BelowInBuffer(c, i, j); At(c, i, j))
    {
    }
  }

  // ---------------------------------------------------------------------------
  // The scans
  // ---------------------------------------------------------------------------

  /** `IsLowerTriangular`: rows in order, and in row i the columns after i,
      stopping at the first nonzero cell. Its reads stay inside the buffer on
      any unflagged container and on a flagged one that is not wide. */
  method IsLowerTriangular(c: Container) returns (b: bool)
    requires LowerScanFits(c)
    ensures b <==> LowerCellsZero(c)
    ensures Viewable(c) ==> (b <==> LowerTriangular(c))
  {
    var i := 0;
    while i < Rows(c)
      invariant i <= Rows(c)
      invariant forall p: nat, q: nat :: p < i && p < q < Cols(c) ==>
        (LowerScanInBuffer(c, p, q); At(c, p, q) == 0.0)
    {
      var j := i + 1;
      while j < Cols(c)
        invariant i < j
        invariant forall q: nat :: i < q < j && q < Cols(c) ==>
          (LowerScanInBuffer(c, i, q); At(c, i, q) == 0.0)
      {
        LowerScanInBuffer(c, i, j);
        if At(c, i, j) != 0.0 {
          if Viewable(c) {
            CellsAreEntries(c);
          }
          return false;
        }
        j := j + 1;
      }
      i := i + 1;
    }
    if Viewable(c) {
      CellsAreEntries(c);
    }
    return true;
  }

  /** Where the written upper scan stays inside the matrix: the rows exceed
      the columns by at most one (see UpperScanStaysInColumns), in either
      flag state. */
  predicate UpperScanFits(c: Container)
  {
    Valid(c) && |c.sizes| == 2 && Rows(c) <= Cols(c) + 1
  }

  /** `IsUpperTriangular` as written: for every row i from 1 the columns
      j < i, with no bound from the column count. */
  method IsUpperTriangular(c: Container) returns (b: bool)
    requires UpperScanFits(c)
    ensures b <==> BelowCellsZero(c)
    ensures Viewable(c) ==> (b <==> UpperTriangular(c))
  {
    var i := 1;
    while i < Rows(c)
      invariant 1 <= i && (Rows(c) == 0 || i <= Rows(c))
      invariant forall p: nat, q: nat :: q < p < i && p < Rows(c) && q < Cols(c) ==>
        (BelowInBuffer(c, p, q); At(c, p, q) == 0.0)
    {
      var j := 0;
      while j < i
        invariant j <= i
        invariant forall q: nat :: q < j && q < Cols(c) ==> (BelowInBuffer(c, i, q); At(c, i, q) == 0.0)
      {
        BelowInBuffer(c, i, j);
        if At(c, i, j) != 0.0 {
          if Viewable(c) {
            CellsAreEntries(c);
          }
          return false;
        }
        j := j + 1;
      }
      i := i + 1;
    }
    if Viewable(c) {
      CellsAreEntries(c);
    }
    return true;
  }

  /** The upper-triangular scan with the column loop also bounded by the
      column count, so its reads stay inside the buffer for every shape and
      flag. */
  method IsUpperTriangularBounded(c: Container) returns (b: bool)
    requires Valid(c) && |c.sizes| == 2
    ensures b <==> BelowCellsZero(c)
    ensures Viewable(c) ==> (b <==> UpperTriangular(c))
  {
    var i := 1;
    while i < Rows(c)
      invariant 1 <= i && (Rows(c) == 0 || i <= Rows(c))
      invariant forall p: nat, q: nat :: q < p < i && p < Rows(c) && q < Cols(c) ==>
        (BelowInBuffer(c, p, q); At(c, p, q) == 0.0)
    {
      var j := 0;
      while j < i && j < Cols(c)
        invariant j <= i
        invariant forall q: nat :: q < j && q < Cols(c) ==> (BelowInBuffer(c, i, q); At(c, i, q) == 0.0)
      {
        BelowInBuffer(c, i, j);
        if At(c, i, j) != 0.0 {
          if Viewable(c) {
            CellsAreEntries(c);
          }
          return false;
        }
        j := j + 1;
      }
      i := i + 1;
    }
    if Viewable(c) {
      CellsAreEntries(c);
    }
    return true;
  }

  /** The (row, column) pairs the written upper-triangular scan visits for a
      matrix with the given number of rows. */
  function UpperScan(rows: nat): set<(nat, nat)>
  {
    set i: nat, j: nat | 1 <= i < rows && j < i :: (i, j)
  }

  /** The written scan stays within the columns exactly when the rows exceed
      the columns by at most one; otherwise it visits `(rows - 1, cols)`,
      whose row-major cell is one past the end of the buffer. */
  lemma UpperScanStaysInColumns(rows: nat, cols: nat)
    ensures (forall p :: p in UpperScan(rows) ==> p.1 < cols) <==> rows <= cols + 1
    ensures rows >= cols + 2 ==>
      (rows - 1, cols) in UpperScan(rows) && (rows - 1) * cols + cols == rows * cols
  {
    if rows >= cols + 2 {
      assert (rows - 1, cols) in UpperScan(rows);
    }
  }
}
